=== FILE: README.md ===
# Meal planner: a Dafny model of the app's data rules

The meal-planner app lets a signed-in user keep a collection of recipes and
assign them to the breakfast, lunch and dinner slots of the coming week.
Its screens are thin. Underneath them sit small, sequential data rules, and
this project models them as pure functions over immutable values:

- **The weekly view** (`DayPlan`). It covers the seven days shown from today
  and the inclusive date range they are fetched with. It groups the fetched
  meal-plan rows into date → meal slot → ordered `{id, recipe}` items. It also
  keeps the per-day collapsed flags of the meal slots and toggles them.
- **The two data hooks** (`MealPlanHook`, `RecipesHook`). Each is a state
  record: the cached list and the `loading` flag. Every operation is one
  total transition over an abstract backend reply:
  - fetch replaces the list;
  - insert prepends;
  - update replaces by id;
  - delete filters by id;
  - every failure returns the source's sentinel (null, false) or rejection
    message and keeps the list.
  The Postgres unique-violation code `23505` becomes the duplicate-title
  message. An empty `image_url` becomes the default image.
- **The recipe form** (`RecipeForm`, `IngredientList`, `StepList`). This
  covers the "detailed info" test and the gate on switching from detailed to
  simple mode. It covers the ingredient and step editors, where a remove
  never leaves fewer than one row. It also covers validation, with
  JavaScript's `trim` written out, and the payload built for each mode.
- **The auth screens and the root layout** (`SignUp`, `SignIn`,
  `RootLayout`). These are the ordered field checks that decide whether the
  backend is called, and the redirect decision over
  `(authLoading, session, segments[0])`.

Shared pieces:
- `Wrappers.Option` models optional values.
- `Seqs` defines the array operations once: `filter`, a replacing `map`,
  remove-at, update-at and `some`.
- `Types` holds the records. They follow types/recipe.ts and types/mealPlans.ts.
  The meal-plan row carries the hook's extra `user_id`. Its joined `recipe` is
  an `Option`. The form's payload (`RecipeDraft`) carries the `category` the
  form sets.
- `Dates` models a local instant as a day number and a time of day.
  `format(d, "yyyy-MM-dd")` becomes the day number, which is injective and
  keeps the order that comparing zero-padded ISO date strings gives.
- `Alerts` holds the auth screens' error-alert title and the alert record.

Backend calls are not modelled. Each hook operation takes the reply it would
receive:
- `Reply` is `NoUser | Err(error) | Ok(value)`. Operations that first ask for
  the signed-in user take this one.
- `Remote` is `Failed(error) | Done(value)`. `getRecipe`, `updateRecipe` and
  `deleteRecipe` go straight to the backend and take this one.

A `BackendError` carries the error code, its message, and whether the object
is a JavaScript `Error` instance. `updateRecipe`'s catch block branches on
that last field.

Some behaviour of the code worth knowing:
- `fetchRecipes` and `fetchMealPlans` return null when no user is signed in;
  they do not raise an authentication error.
- `getRecipe` returns null on every error, transport errors included.
- The meal-plan hook's `updateMealPlan` exists, but no screen calls it.

## Model

| member | source | states |
|---|---|---|
| Dates.AddDays | components/meal-plan/DayPlan.tsx:83-84 | a day shifted by `n` with `setDate` has the date key `n` days later and the same time of day |
| DayPlan.WeekDays | components/meal-plan/DayPlan.tsx:81-86 | seven days, the first on today's date, each date key one more than the previous, all strictly increasing |
| DayPlan.WeekRangeCoversShownDays | components/meal-plan/DayPlan.tsx:102-105 | a date is inside the range `loadMeals` fetches (first to last shown day) exactly when it is one of the seven shown days |
| DayPlan.Push | components/meal-plan/DayPlan.tsx:110-120 | one pass of the grouping loop: the plan's date and slot get a bucket, the plan's item is appended to that slot and to no other, every other date's bucket is untouched |
| DayPlan.GroupIsBuckets | components/meal-plan/DayPlan.tsx:108-121 | for every date and slot, the grouped list equals the reference definition: the items of exactly the plans with that date and slot, in input order |
| DayPlan.GroupSlotsNonEmpty | components/meal-plan/DayPlan.tsx:110-120 | the grouping never holds an empty slot list or an empty date bucket |
| DayPlan.GroupHasNoEmptyBuckets | components/meal-plan/DayPlan.tsx:110-116 | a date key exists iff some plan has that date, a slot key exists iff some plan has that date and slot, and every existing slot list is non-empty |
| DayPlan.PlacedAtRank | components/meal-plan/DayPlan.tsx:117-120 | every plan's `{id, recipe}` is in the list of its own date and slot, at the position given by the number of earlier plans in that slot |
| DayPlan.EveryPlanPlacedInOrder | components/meal-plan/DayPlan.tsx:109-121 | of two plans with the same date and slot, the one earlier in the input is placed strictly earlier in the slot list (append-only push keeps the input order) |
| DayPlan.ItemsComeFromTheirSlot | components/meal-plan/DayPlan.tsx:109-121 | every item of a slot list is the item of some input plan with that date and slot, so no plan lands in a foreign bucket |
| DayPlan.GroupKeepsEveryPlan | components/meal-plan/DayPlan.tsx:109-121 | summed over the dates and their three slots, the grouping holds exactly as many items as there were plans |
| DayPlan.DateKeysAreGroupKeys | components/meal-plan/DayPlan.tsx:110-113 | the grouped object's dates, in order of first appearance, are distinct and are exactly its keys |
| DayPlan.LoadMeals | components/meal-plan/DayPlan.tsx:102-123 | a null fetch result leaves the weekly view unchanged; a list (empty included) replaces it with buckets equal to the reference definition and holding every plan |
| DayPlan.InitialStates | components/meal-plan/DayPlan.tsx:89-99 | every shown day's date key maps to all three slots expanded, and only shown days have an entry |
| DayPlan.InitialStatesOfWeek | components/meal-plan/DayPlan.tsx:89-100 | at mount exactly the seven days from today have flags, each with all three slots present and not collapsed |
| DayPlan.ToggleMeal | components/meal-plan/DayPlan.tsx:181-186 | `toggleMeal(t)` flips the flag of `t` (a missing flag reads as false) and keeps every other slot's flag |
| DayPlan.ToggleTwice | components/meal-plan/DayPlan.tsx:181-186 | toggling the same slot twice restores every slot's flag |
| DayPlan.ToggleUpdaterAsWritten | components/meal-plan/DayPlan.tsx:181-186 | `toggleMeal`'s updater throws exactly when it is handed `undefined` instead of a day's flags; otherwise it flips slot `t` and keeps the others |
| DayPlan.ToggleSlotAsWritten | components/meal-plan/DayPlan.tsx:153-161 | as written, pressing a slot header throws exactly when its day has no flags; otherwise it flips that slot and changes no other day |
| DayPlan.NextDaysLastSlotThrows | components/meal-plan/DayPlan.tsx:81-100 | with the flags set at mount and the week recomputed a day later, the new seventh day has no flags and pressing any of its slot headers throws |
| DayPlan.SetCollapsedMeals | components/meal-plan/DayPlan.tsx:153-161 | the corrected per-day setter changes only its own date's entry: a new value replaces it; an updater gets the day's flags, or an empty record when the day has none, as the render reads a missing entry as an empty record |
| DayPlan.ToggleOnlyThatSlot | components/meal-plan/DayPlan.tsx:181-186 | through the corrected setter, pressing a slot header flips exactly that day's slot, flagged day or not; every other day and slot keeps its collapsed state |
| DayPlan.CorrectedAgreesWhereFlagged | components/meal-plan/DayPlan.tsx:153-161 | the code as written succeeds exactly on days with flags, and there the corrected setter gives the same state |
| MealPlanHook.FetchRangeInclusive | hooks/useMealPlan.ts:37-38 | a date is inside the fetched range iff it lies between the local days of `start` and `end`, both included, whatever their times of day |
| MealPlanHook.SelectRange | hooks/useMealPlan.ts:36-38 | the range filter keeps a table row iff its date is within the bounds, and keeps nothing else |
| MealPlanHook.FetchedRowsInRange | hooks/useMealPlan.ts:30-43 | when the backend answers from a table, the cache after the fetch holds exactly the table rows dated between the two local days inclusive |
| MealPlanHook.FetchMealPlans | hooks/useMealPlan.ts:23-50 | success replaces the cache with the rows (`data` or the empty list) and returns `data`; no user or an error returns null and keeps the cache; `loading` ends false |
| MealPlanHook.FetchReplacesCache | hooks/useMealPlan.ts:42 | a successful fetch ends in the same state whatever the previous cache, and repeating it with the same answer changes nothing |
| MealPlanHook.InsertRow | hooks/useMealPlan.ts:61 | the inserted row carries the given date, slot and recipe id and the signed-in user's id |
| MealPlanHook.AddMealPlan | hooks/useMealPlan.ts:52-77 | success puts exactly the inserted row in front, followed by the old cache unchanged, and returns it; any failure returns null with the cache kept; `loading` ends false |
| MealPlanHook.UpdateMealPlan | hooks/useMealPlan.ts:79-108 | success keeps length and order and replaces exactly the rows with the id; any failure returns null with the cache kept; `loading` ends false |
| MealPlanHook.DeleteMealPlan | hooks/useMealPlan.ts:110-132 | success returns true, leaves no row with the id, keeps every row with another id, and never grows the cache (order and multiplicity follow with `DeleteSplits`); failure returns false with the cache kept; `loading` ends false |
| MealPlanHook.DeleteSplits | hooks/useMealPlan.ts:124 | deleting distributes over any split of the cache, and a single row is dropped exactly when it has the id, so every other row stays exactly once and in order, including rows sharing the deleted row's date and slot |
| MealPlanHook.DeleteUndoesAdd | hooks/useMealPlan.ts:124-125 | deleting the id of a row just prepended (line 69) restores the cache when no cached row had that id |
| MealPlanHook.UpdateThenDelete | hooks/useMealPlan.ts:98-100 | an update touches only the rows with its id: deleting that id afterwards gives the same cache as deleting it before |
| RecipesHook.DuplicateMessageNamesTitle | hooks/useRecipes.ts:76-77 | the duplicate-title message contains the submitted title right after the opening bracket, and different titles give different messages |
| RecipesHook.TemplateText | hooks/useRecipes.ts:110 | a patch without a title is rendered as "undefined" in the message, as the template literal does |
| RecipesHook.CreatePayload | hooks/useRecipes.ts:62-66 | the inserted row is the recipe with its `image_url` kept if non-empty and the default image otherwise, and the signed-in user's id; its image is never empty |
| RecipesHook.FetchRecipes | hooks/useRecipes.ts:12-35 | success replaces the cache with `data` or the empty list and returns `data`; failure returns null and keeps the cache; `loading` ends false |
| RecipesHook.FetchReplacesCache | hooks/useRecipes.ts:27 | a successful fetch ends in the same state whatever the previous cache, and repeating it with the same answer changes nothing |
| RecipesHook.GetRecipe | hooks/useRecipes.ts:37-53 | the row on success, null on any error |
| RecipesHook.CreateErrorMessage | hooks/useRecipes.ts:74-90 | a failed insert rejects with the duplicate-title message for `23505`, otherwise with the error's own message if it is an `Error`, otherwise with the generic save-failure message |
| RecipesHook.CreateRecipe | hooks/useRecipes.ts:55-93 | success prepends exactly the new row and returns it; every failure rejects with the cache kept: "User not authenticated" when there is no user, the duplicate message for `23505`, otherwise the error's own message for an `Error` and the save-failure text for anything else |
| RecipesHook.UpdateRecipe | hooks/useRecipes.ts:95-126 | success replaces by id keeping length and order; `23505` rejects with the duplicate message; another error rejects if it is an `Error` and resolves to null otherwise; the cache is kept on failure |
| RecipesHook.DeleteRecipe | hooks/useRecipes.ts:128-147 | success returns true, leaves no recipe with the id, keeps every other, and never grows the cache (order and multiplicity follow with `RecipesHook.DeleteSplits`); an error returns false with the cache kept |
| RecipesHook.DeleteSplits | hooks/useRecipes.ts:139 | deleting distributes over any split of the cache, and a single recipe is dropped exactly when it has the id, so every other recipe stays exactly once and in order |
| RecipesHook.DuplicateCreateRejected | hooks/useRecipes.ts:74-82 | a title the backend reports as taken is never added to the cache, and the rejection message names it |
| RecipesHook.DeleteUndoesCreate | hooks/useRecipes.ts:139 | deleting the id of a recipe just created (line 82) restores the cache when no cached recipe had that id |
| RecipesHook.UpdateThenDelete | hooks/useRecipes.ts:115 | an update touches only the recipes with its id: deleting that id afterwards gives the same cache as deleting it before |
| Seqs.FilterAppend | hooks/useMealPlan.ts:124 | `filter` commutes with concatenation, so the kept elements stay in their relative order |
| RecipeForm.InitialForm | components/recipe/RecipeForm.tsx:47-62 | the form starts in detailed mode with the given fields (numbers shown as text), category "main", and the given ingredient and step lists as they are (an empty one included), or one blank ingredient row and one empty step when none are given |
| RecipeForm.HasDetailedInfo | components/recipe/RecipeForm.tsx:70-78 | true iff the description, cooking time or servings is non-empty, or some ingredient has a name or an amount, or some step is non-empty |
| RecipeForm.HandleModeChange | components/recipe/RecipeForm.tsx:80-99 | asks for confirmation iff switching to simple mode from detailed mode with details entered; otherwise the mode changes at once and nothing else does |
| RecipeForm.ConfirmModeChange | components/recipe/RecipeForm.tsx:91-92 | confirming sets the requested mode and changes no other field |
| RecipeForm.ModeSwitchKeepsDetails | components/recipe/RecipeForm.tsx:84 | a mode switch keeps the entered details: the detailed-info test is unchanged and switching back gives the same form |
| RecipeForm.AddIngredient | components/recipe/RecipeForm.tsx:101-103 | one blank row is appended after the unchanged rows |
| RecipeForm.UpdateIngredient | components/recipe/RecipeForm.tsx:105-116 | for a row on screen, that row gets the new field value and every other row is unchanged |
| RecipeForm.RemoveRow | components/recipe/RecipeForm.tsx:118-122 | `removeIngredient`, and `removeStep` (lines 134-138) by the same rule: with more than one entry, exactly entry `i` is removed; otherwise nothing changes, so the list never drops below one entry |
| RecipeForm.AddStep | components/recipe/RecipeForm.tsx:124-126 | one empty step is appended after the unchanged steps |
| RecipeForm.UpdateStep | components/recipe/RecipeForm.tsx:128-132 | for a step on screen, that step becomes the value and the others are unchanged; at the position just past the last step the value is appended |
| RecipeForm.RemoveUndoesAdd | components/recipe/RecipeForm.tsx:101-138 | removing the row or step just added gives the list back when it was non-empty |
| RecipeForm.LeadingSpace | components/recipe/RecipeForm.tsx:143 | counts the white space that `trim` strips at the front: all counted characters are white space and the next one is not |
| RecipeForm.TrailingSpace | components/recipe/RecipeForm.tsx:143 | counts the white space that `trim` strips at the end: all counted characters are white space and the one before is not |
| RecipeForm.Trim | components/recipe/RecipeForm.tsx:143 | `trim` returns the slice between the leading and trailing white space, which neither starts nor ends with white space |
| RecipeForm.TrimEmptyIffBlank | components/recipe/RecipeForm.tsx:143 | the title trims to nothing iff every character is ECMAScript white space |
| RecipeForm.Validate | components/recipe/RecipeForm.tsx:140-159 | each field's error is set by its own check: the title's iff it is all white space, the cooking time's and the servings' iff in detailed mode the field is non-empty and not numeric; so no errors iff all pass; each error carries its message |
| RecipeForm.SimplePayload | components/recipe/RecipeForm.tsx:173-187 | simple mode submits title and category as typed, a placeholder picture, and description, times, ingredients, steps and calories from the initial data with `""`, `0` and `[]` defaults |
| RecipeForm.DetailedPayload | components/recipe/RecipeForm.tsx:173-194 | detailed mode submits the typed fields with the numbers parsed, exactly the rows with both name and amount, exactly the non-empty steps, and the initial picture and calories |
| RecipeForm.HandleSubmit | components/recipe/RecipeForm.tsx:170-198 | `onSubmit` is called iff validation passes, with the payload of the current mode; otherwise the errors are set |
| RecipeForm.SubmittedRowsKeepOrder | components/recipe/RecipeForm.tsx:192-193 | the submitted ingredients and steps keep their on-screen order: submitting `a + b` gives the rows of `a` followed by those of `b` |
| Types.WithField | components/recipe/IngredientList.tsx:25 | setting one field of an ingredient leaves the other field unchanged |
| IngredientList.AddIngredient | components/recipe/IngredientList.tsx:15-17 | exactly one blank row is appended; earlier rows are unchanged |
| IngredientList.UpdateIngredient | components/recipe/IngredientList.tsx:19-28 | row `i` gets the value in the chosen field and keeps the other field; every other row and the length are kept; an out-of-range index gives back the list |
| IngredientList.AgreesWithRecipeForm | components/recipe/IngredientList.tsx:24-26 | on rows on screen this editor's add and update equal the recipe form's |
| IngredientList.EditsCommute | components/recipe/IngredientList.tsx:24-26 | edits of the name and the amount commute, and of two edits of the same field the later one wins |
| StepList.AddStep | components/recipe/StepList.tsx:9-11 | exactly one empty step is appended; earlier steps are unchanged |
| StepList.UpdateStep | components/recipe/StepList.tsx:13-16 | step `i` becomes the value; the length and every other step are kept; an out-of-range index changes nothing |
| StepList.AgreesWithRecipeForm | components/recipe/StepList.tsx:13-16 | on steps on screen this editor's add and update equal the recipe form's, and writing the old text back restores the list |
| SignUp.Utf16Length | app/auth/sign-up.tsx:41 | the password length is counted in UTF-16 code units: one for a character in the Basic Multilingual Plane and two for one above it, so between one and two per character |
| SignUp.Utf16LengthAppend | app/auth/sign-up.tsx:41 | the code-unit count of a concatenation is the sum of the parts' counts, which with the one-character values fixes the count of every string |
| SignUp.ValidationError | app/auth/sign-up.tsx:31-44 | no error iff all fields are filled, the passwords match and are at least six long; otherwise the first failing check (empty, mismatch, length) is the one error |
| SignUp.HandleSignUp | app/auth/sign-up.tsx:30-66 | `signUp` is called, with the entered email and password, iff validation passes; its error is shown, or the confirmation alert leads to the sign-in route; `loading` ends false |
| SignUp.LengthCheckInCharacters | app/auth/sign-up.tsx:41-44 | for a password that passes the first two checks, six or more characters always pass the length check, and for Basic Multilingual Plane characters the length error is shown iff it has fewer than six, for characters above that plane iff it has fewer than three |
| SignIn.HandleSignIn | app/auth/sign-in.tsx:29-46 | `signIn` is called with exactly the entered credentials iff both are filled; its error is shown without navigating; otherwise the route becomes the tabs; `loading` ends false |
| RootLayout.Render | app/_layout.tsx:43-49 | the spinner is rendered iff the session is still loading |
| RootLayout.Redirect | app/_layout.tsx:31-41 | no redirect while loading; to sign-in iff signed out outside the auth group; to the tabs iff signed in inside it; otherwise none |
| RootLayout.RedirectSettles | app/_layout.tsx:36-40 | on the screen a redirect leads to, with the same session, no further redirect happens |
| RootLayout.AuthScreensLandStably | app/auth/sign-in.tsx:40-41 | a successful sign-in (which creates a session) lands on the tabs and the layout keeps it there; a sign-up confirmation's sign-in screen is kept iff sign-up left no session, and otherwise the layout moves on to the tabs |

## Left out

- Backend client, session and auth wrappers (constants/supabase.ts, hooks/useSupabase.ts, hooks/useAuth.ts): these are I/O. Their answers enter the model as `Reply`/`Remote` values and as the `answer` of the auth screens.
- Image upload (hooks/useSupabaseStorage.ts): file-system and network I/O.
- Server-side query semantics: the `created_at` ordering, the `recipes(*)` join and the `user_id` scoping. Returned rows are taken as given. Only the date filter of the range query is written out (`SelectRange`).
- The `if (!supabase)` guards of the recipe hook: they are dead code, because constants/supabase.ts throws at import when the client cannot be built.
- The meal-plan hook's `error` field: it is never written.
- The root layout's `SplashScreen.hideAsync` call once loading ends: a native side effect.
- A sign-up or sign-in call that throws instead of returning an error: `handleSignUp` and `handleSignIn` have no `catch`, so the rejection escapes once `loading` is reset. The model's `answer` is the returned error or none.
- `console.error` logging, the alerts' cancel buttons, and navigation beyond the route chosen. These are side effects. Outcomes are values.
- Concurrency: overlapping requests, the shared `loading` flag, and last-response-wins. Each operation is one sequential transition.
- Time zones and the calendar: a day is a day number. `weekDays` calls `new Date()` once for `today` and once more for each of the seven days; the model reads the clock once, so a single week built while midnight passes is not modelled. A week recomputed on a later render is modelled (see "## Findings").
- JavaScript number conversions (`Number`/`isNaN`, `parseInt(...) || 0`, `toString`): they are a `NumberConversions` parameter and are not interpreted.
- `Math.random` for the placeholder picture: it is the `pick` parameter.
- RecipeForm.UpdateIngredient: requires the index to be a row on screen, as every caller passes. At the index just past the end JavaScript appends a row holding only the edited field, which an `Ingredient` with two string fields cannot represent; further out it writes a sparse array slot, which a sequence cannot represent.
- RecipeForm.UpdateStep: requires the index to be a step on screen or the position just past the last one (where the assignment appends), as its only caller passes a step on screen. Further out JavaScript writes a sparse array slot, which a sequence cannot represent.
- `DayPlan`'s `handleDelete` and `handlePress`: alert and navigation flows. `handlePress` only pushes the create-plan route. `handleDelete` calls `deleteMealPlan` (modelled) on the day's own hook instance, whose cache is never fetched, and on success calls `onUpdate`, which is `loadMeals` (modelled); only that refetch changes the view.
- Pure presentation components (Button, Input, ThemedText, ThemedView, HapticTab, CollapsibleView, ExternalLink, RecipeCard, constants/theme.ts, app.config.ts): styling only.
- components/meal-plan/Calendar.tsx: it imports a `DayPlan` that is not exported and omits required props. It is broken wiring, not logic.
- Grouped items keep whatever recipe the join delivered, an absent one included. `plan.recipe!` checks nothing at run time.

## Findings

| source | as written | input that shows it | evidently intended | confidence | as-written member | corrected member |
|---|---|---|---|---|---|---|
| components/meal-plan/DayPlan.tsx:153-161 | the per-day setter hands the updater `prev[dateKey]`, and `toggleMeal`'s updater reads `prev[type]`, so for a day without flags it throws a `TypeError` | mount at time `now`; render again a day later, so the seventh shown day is `now + 7`, which the mount effect gave no flags; press any slot header of that day | hand the updater an empty record for a day without flags, as the render already reads a missing entry, so the slot collapses | high, not executed | DayPlan.NextDaysLastSlotThrows | DayPlan.ToggleOnlyThatSlot |

=== FILE: alerts.dfy ===
/** The alerts the auth screens raise with `Alert.alert`. */
module Alerts {
  import opened Wrappers

  /** The title of every error alert of the auth screens. */
  const ErrorTitle: string := "エラー"

  /** An alert; `onOk` is the route its OK button replaces the screen with. */
  datatype Alert = Alert(title: string, message: string, onOk: Option<string>)

  /** An error alert with a single dismissing button. */
  function ErrorAlert(message: string): (a: Alert)
    ensures a.title == ErrorTitle && a.message == message && a.onOk.None?
  {
    Alert(ErrorTitle, message, None)
  }
}

=== FILE: dates.dfy ===
/** Local-time instants and the date-only keys `format(d, "yyyy-MM-dd")`
    derives from them. An instant is a day number and a time of day; the
    calendar arithmetic of `Date.setDate` is day-number addition. */
module Dates {
  import opened Types

  const MillisPerDay: int := 86_400_000

  type TimeOfDay = m: int | 0 <= m < MillisPerDay

  datatype Instant = Instant(day: int, time: TimeOfDay)

  /** `format(t, "yyyy-MM-dd")`: the date key of the local day of `t`; the
      time of day is discarded. */
  function Format(t: Instant): DateKey
  {
    t.day
  }

  /** `d.setDate(d.getDate() + n)` on a copy: the same time of day, `n`
      calendar days later. */
  function AddDays(t: Instant, n: int): (r: Instant)
    ensures Format(r) == Format(t) + n
    ensures r.time == t.time
  {
    Instant(t.day + n, t.time)
  }
}

=== FILE: day_plan.dfy ===
/** components/meal-plan/DayPlan.tsx: the weekly view's data rules. The
    seven days shown, the range they are fetched with, the grouping of the
    fetched rows into date -> meal slot -> entries, and the per-day
    collapsed flags of the meal slots. */
module DayPlan {
  import opened Wrappers
  import opened Types
  import opened Dates
  import Seqs
  import MealPlanHook

  // ---------------------------------------------------------------------
  // The week

  const DaysShown: nat := 7

  /** `weekDays`: today and the six following days, each at the current
      time of day. */
  function WeekDays(now: Instant): (days: seq<Instant>)
    ensures |days| == DaysShown
    ensures Format(days[0]) == Format(now)
    ensures forall i :: 0 <= i < |days| - 1 ==> Format(days[i + 1]) == Format(days[i]) + 1
    ensures forall i, j :: 0 <= i < j < |days| ==> Format(days[i]) < Format(days[j])
  {
    seq(DaysShown, i requires 0 <= i < DaysShown => AddDays(now, i))
  }

  /** The range `loadMeals` fetches: from the first to the last shown day. */
  function WeekRange(now: Instant): MealPlanHook.DateRange {
    var days := WeekDays(now);
    MealPlanHook.FetchRange(days[0], days[|days| - 1])
  }

  /** A date is in the fetched range exactly when it is one of the seven
      shown days. */
  lemma WeekRangeCoversShownDays(now: Instant, k: DateKey)
    ensures MealPlanHook.InRange(WeekRange(now), k) <==>
              exists i :: 0 <= i < DaysShown && Format(WeekDays(now)[i]) == k
  {
    var days := WeekDays(now);
    if MealPlanHook.InRange(WeekRange(now), k) {
      var i := k - now.day;
      assert Format(days[i]) == k;
    }
  }

  // ---------------------------------------------------------------------
  // Grouping

  /** One `{ id, recipe }` item of a meal slot. The recipe is whatever the
      join delivered, absent included: the `plan.recipe!` assertion does
      not check anything at run time. */
  datatype MealEntry = MealEntry(id: Id, recipe: Option<Recipe>)

  type DailyMeals = map<MealType, seq<MealEntry>>

  type WeeklyMeals = map<DateKey, DailyMeals>

  function EntryOf(p: MealPlan): MealEntry {
    MealEntry(p.id, p.recipe)
  }

  function Entries(ps: seq<MealPlan>): (es: seq<MealEntry>)
    ensures |es| == |ps|
    ensures forall i :: 0 <= i < |ps| ==> es[i] == EntryOf(ps[i])
  {
    seq(|ps|, i requires 0 <= i < |ps| => EntryOf(ps[i]))
  }

  /** The items of slot `t` on date `d`; an absent date or slot reads as no
      items, as the view treats it. */
  function Lookup(g: WeeklyMeals, d: DateKey, t: MealType): seq<MealEntry> {
    if d in g && t in g[d] then g[d][t] else []
  }

  /** One pass of the `forEach` body: create the date's bucket if absent,
      create the slot's list if absent, push the plan's item onto it. */
  function Push(g: WeeklyMeals, p: MealPlan): (g': WeeklyMeals)
    ensures g'.Keys == g.Keys + {p.date}
    ensures g'[p.date].Keys == (if p.date in g then g[p.date].Keys else {}) + {p.mealType}
    ensures forall d :: d in g && d != p.date ==> g'[d] == g[d]
    ensures forall d, t :: Lookup(g', d, t) ==
              Lookup(g, d, t) + (if d == p.date && t == p.mealType then [EntryOf(p)] else [])
  {
    var day: DailyMeals := if p.date in g then g[p.date] else map[];
    var items := if p.mealType in day then day[p.mealType] else [];
    g[p.date := day[p.mealType := items + [EntryOf(p)]]]
  }

  /** The grouping loop of `loadMeals`, over the plans in fetch order. */
  function Group(plans: seq<MealPlan>): WeeklyMeals {
    if |plans| == 0 then map[]
    else Push(Group(plans[..|plans| - 1]), plans[|plans| - 1])
  }

  /** Reference definition of a slot's items: the items of the plans with
      that date and slot, in input order. */
  function Bucket(plans: seq<MealPlan>, d: DateKey, t: MealType): seq<MealEntry> {
    Entries(Seqs.Filter(plans, (p: MealPlan) => p.date == d && p.mealType == t))
  }

  lemma EntriesAppend(a: seq<MealPlan>, b: seq<MealPlan>)
    ensures Entries(a + b) == Entries(a) + Entries(b)
  {
  }

  /** `Bucket` splits along any split of the input. */
  lemma BucketAppend(a: seq<MealPlan>, b: seq<MealPlan>, d: DateKey, t: MealType)
    ensures Bucket(a + b, d, t) == Bucket(a, d, t) + Bucket(b, d, t)
  {
    var keep := (p: MealPlan) => p.date == d && p.mealType == t;
    Seqs.FilterAppend(a, b, keep);
    EntriesAppend(Seqs.Filter(a, keep), Seqs.Filter(b, keep));
  }

  lemma BucketOne(p: MealPlan, d: DateKey, t: MealType)
    ensures Bucket([p], d, t) == if p.date == d && p.mealType == t then [EntryOf(p)] else []
  {
    var keep := (q: MealPlan) => q.date == d && q.mealType == t;
    assert Seqs.Filter([p], keep) == (if keep(p) then [p] else []) + Seqs.Filter([], keep);
  }

  /** The grouping loop computes the reference buckets: every slot list of
      the result holds exactly the items of the plans with that date and
      slot, in input order. */
  lemma {:induction false} GroupIsBuckets(plans: seq<MealPlan>)
    ensures forall d, t :: Lookup(Group(plans), d, t) == Bucket(plans, d, t)
  {
    if |plans| > 0 {
      var init := plans[..|plans| - 1];
      var last := plans[|plans| - 1];
      GroupIsBuckets(init);
      assert plans == init + [last];
      forall d, t ensures Lookup(Group(plans), d, t) == Bucket(plans, d, t) {
        BucketAppend(init, [last], d, t);
        BucketOne(last, d, t);
      }
    }
  }

  /** No slot list of the grouping is empty, and no date bucket is. */
  lemma {:induction false} GroupSlotsNonEmpty(plans: seq<MealPlan>)
    ensures forall d, t :: d in Group(plans) && t in Group(plans)[d] ==> |Group(plans)[d][t]| > 0
    ensures forall d :: d in Group(plans) ==> |Group(plans)[d]| > 0
  {
    if |plans| > 0 {
      var init := plans[..|plans| - 1];
      var last := plans[|plans| - 1];
      GroupSlotsNonEmpty(init);
      forall d, t | d in Group(plans) && t in Group(plans)[d]
        ensures |Group(plans)[d][t]| > 0
      {
        assert Lookup(Group(plans), d, t) == Group(plans)[d][t];
        if d != last.date || t != last.mealType {
          assert Lookup(Group(init), d, t) == Group(init)[d][t];
        }
      }
      assert last.mealType in Group(plans)[last.date];
    }
  }

  lemma {:induction false} DateKeysOfPlans(plans: seq<MealPlan>, d: DateKey)
    ensures d in DateKeys(plans) <==> exists i :: 0 <= i < |plans| && plans[i].date == d
  {
    if |plans| > 0 {
      var init := plans[..|plans| - 1];
      DateKeysOfPlans(init, d);
      if exists i :: 0 <= i < |plans| && plans[i].date == d {
        var i :| 0 <= i < |plans| && plans[i].date == d;
        if i < |plans| - 1 {
          assert init[i] == plans[i];
        }
      }
      if exists i :: 0 <= i < |init| && init[i].date == d {
        var i :| 0 <= i < |init| && init[i].date == d;
        assert plans[i] == init[i];
      }
    }
  }

  /** Only dates and slots that some plan has get a bucket, and no bucket
      is empty. */
  lemma {:induction false} GroupHasNoEmptyBuckets(plans: seq<MealPlan>, d: DateKey, t: MealType)
    ensures d in Group(plans) <==> exists i :: 0 <= i < |plans| && plans[i].date == d
    ensures d in Group(plans) && t in Group(plans)[d] <==>
              exists i :: 0 <= i < |plans| && plans[i].date == d && plans[i].mealType == t
    ensures d in Group(plans) && t in Group(plans)[d] ==> |Group(plans)[d][t]| > 0
  {
    GroupSlotsNonEmpty(plans);
    DateKeysAreGroupKeys(plans);
    DateKeysOfPlans(plans, d);
    if d in Group(plans) && t in Group(plans)[d] {
      assert |Lookup(Group(plans), d, t)| > 0;
      ItemsComeFromTheirSlot(plans, d, t, 0);
    }
    if exists i :: 0 <= i < |plans| && plans[i].date == d && plans[i].mealType == t {
      var i :| 0 <= i < |plans| && plans[i].date == d && plans[i].mealType == t;
      PlacedAtRank(plans, i);
    }
  }

  /** Where plan `i` lands in its slot: the number of earlier plans with the
      same date and slot. */
  function Rank(plans: seq<MealPlan>, i: nat): nat
    requires i < |plans|
  {
    |Bucket(plans[..i], plans[i].date, plans[i].mealType)|
  }

  /** Every plan lands in the slot of its own date and meal type, at its
      rank; and a plan that comes later in the input with the same date and
      slot lands strictly after it. */
  lemma {:induction false} EveryPlanPlacedInOrder(plans: seq<MealPlan>, i: nat, j: nat)
    requires i < j < |plans|
    requires plans[i].date == plans[j].date && plans[i].mealType == plans[j].mealType
    ensures var items := Lookup(Group(plans), plans[i].date, plans[i].mealType);
            && Rank(plans, i) < Rank(plans, j) < |items|
            && items[Rank(plans, i)] == EntryOf(plans[i])
            && items[Rank(plans, j)] == EntryOf(plans[j])
  {
    PlacedAtRank(plans, i);
    PlacedAtRank(plans, j);
    var d, t := plans[i].date, plans[i].mealType;
    assert plans[..j] == plans[..i] + plans[i..j];
    BucketAppend(plans[..i], plans[i..j], d, t);
    assert plans[i..j] == [plans[i]] + plans[i + 1..j];
    BucketAppend([plans[i]], plans[i + 1..j], d, t);
    BucketOne(plans[i], d, t);
  }

  /** Plan `i` is the item at its rank in its slot. */
  lemma {:induction false} PlacedAtRank(plans: seq<MealPlan>, i: nat)
    requires i < |plans|
    ensures var items := Lookup(Group(plans), plans[i].date, plans[i].mealType);
            Rank(plans, i) < |items| && items[Rank(plans, i)] == EntryOf(plans[i])
  {
    var d, t := plans[i].date, plans[i].mealType;
    GroupIsBuckets(plans);
    assert plans == plans[..i] + ([plans[i]] + plans[i + 1..]);
    BucketAppend(plans[..i], [plans[i]] + plans[i + 1..], d, t);
    BucketAppend([plans[i]], plans[i + 1..], d, t);
    BucketOne(plans[i], d, t);
  }

  /** Every item of a slot comes from a plan with that date and slot. */
  lemma {:induction false} ItemsComeFromTheirSlot(plans: seq<MealPlan>, d: DateKey, t: MealType, k: nat)
    requires k < |Lookup(Group(plans), d, t)|
    ensures exists i :: 0 <= i < |plans| && plans[i].date == d && plans[i].mealType == t
                        && Lookup(Group(plans), d, t)[k] == EntryOf(plans[i])
  {
    GroupIsBuckets(plans);
    var kept := Seqs.Filter(plans, (p: MealPlan) => p.date == d && p.mealType == t);
    assert kept[k] in plans;
    var i :| 0 <= i < |plans| && plans[i] == kept[k];
  }

  // ---------------------------------------------------------------------
  // Counting: no plan is lost or duplicated

  /** The dates of the plans, each once, in order of first appearance (the
      key order of the grouped object). */
  function DateKeys(plans: seq<MealPlan>): seq<DateKey> {
    if |plans| == 0 then []
    else
      var ks := DateKeys(plans[..|plans| - 1]);
      var d := plans[|plans| - 1].date;
      if d in ks then ks else ks + [d]
  }

  predicate Distinct(ks: seq<DateKey>) {
    forall i, j :: 0 <= i < j < |ks| ==> ks[i] != ks[j]
  }

  /** The number of items shown on date `d` (all three slots). */
  function DaySize(g: WeeklyMeals, d: DateKey): nat {
    |Lookup(g, d, Breakfast)| + |Lookup(g, d, Lunch)| + |Lookup(g, d, Dinner)|
  }

  /** The number of items over the given dates. */
  function TotalEntries(g: WeeklyMeals, ks: seq<DateKey>): nat {
    if |ks| == 0 then 0 else DaySize(g, ks[0]) + TotalEntries(g, ks[1..])
  }

  lemma {:induction false} TotalAppend(g: WeeklyMeals, ks: seq<DateKey>, d: DateKey)
    ensures TotalEntries(g, ks + [d]) == TotalEntries(g, ks) + DaySize(g, d)
  {
    if |ks| > 0 {
      assert (ks + [d])[1..] == ks[1..] + [d];
      TotalAppend(g, ks[1..], d);
    }
  }

  lemma {:induction false} TotalAfterPush(g: WeeklyMeals, p: MealPlan, ks: seq<DateKey>)
    requires Distinct(ks)
    ensures TotalEntries(Push(g, p), ks) == TotalEntries(g, ks) + (if p.date in ks then 1 else 0)
  {
    if |ks| > 0 {
      TotalAfterPush(g, p, ks[1..]);
      assert p.date in ks <==> p.date == ks[0] || p.date in ks[1..];
    }
  }

  lemma {:induction false} DateKeysAreGroupKeys(plans: seq<MealPlan>)
    ensures Distinct(DateKeys(plans))
    ensures forall d :: d in DateKeys(plans) <==> d in Group(plans)
  {
    if |plans| > 0 {
      DateKeysAreGroupKeys(plans[..|plans| - 1]);
    }
  }

  /** Summed over its dates, the grouped object holds exactly as many items
      as there were plans. */
  lemma {:induction false} GroupKeepsEveryPlan(plans: seq<MealPlan>)
    ensures TotalEntries(Group(plans), DateKeys(plans)) == |plans|
  {
    if |plans| > 0 {
      var init := plans[..|plans| - 1];
      var last := plans[|plans| - 1];
      var g := Group(init);
      var ks := DateKeys(init);
      GroupKeepsEveryPlan(init);
      DateKeysAreGroupKeys(init);
      DateKeysAreGroupKeys(plans);
      TotalAfterPush(g, last, DateKeys(plans));
      if last.date !in ks {
        TotalAppend(g, ks, last.date);
        assert DaySize(g, last.date) == 0;
      }
    }
  }

  /** `loadMeals` after its fetch: a null result leaves the weekly view as
      it was; a list (empty included) replaces it with the grouping. */
  function LoadMeals(weekly: WeeklyMeals, fetched: Option<seq<MealPlan>>): (r: WeeklyMeals)
    ensures fetched.None? ==> r == weekly
    ensures fetched.Some? ==> forall d, t :: Lookup(r, d, t) == Bucket(fetched.value, d, t)
    ensures fetched.Some? ==> TotalEntries(r, DateKeys(fetched.value)) == |fetched.value|
  {
    match fetched
    case None => weekly
    case Some(plans) =>
      GroupIsBuckets(plans);
      GroupKeepsEveryPlan(plans);
      Group(plans)
  }

  // ---------------------------------------------------------------------
  // Collapsed flags

  /** The collapsed flags of one day's slots. */
  type Flags = map<MealType, bool>

  /** The collapsed flags of every day. */
  type CollapsedStates = map<DateKey, Flags>

  /** Whether slot `t` is collapsed; a missing flag reads as false. */
  predicate IsSet(f: Flags, t: MealType) {
    t in f && f[t]
  }

  /** Whether slot `t` of day `d` is collapsed
      (`(collapsedStates[dateKey] || {})[type]`). */
  predicate IsCollapsed(s: CollapsedStates, d: DateKey, t: MealType) {
    d in s && IsSet(s[d], t)
  }

  const AllOpen: Flags := map[Breakfast := false, Lunch := false, Dinner := false]

  /** The initial collapsed state: the `reduce` over the shown days. */
  function InitialStates(days: seq<Instant>): (s: CollapsedStates)
    ensures forall i :: 0 <= i < |days| ==> Format(days[i]) in s && s[Format(days[i])] == AllOpen
    ensures forall d :: d in s ==> exists i :: 0 <= i < |days| && Format(days[i]) == d
  {
    if |days| == 0 then map[]
    else
      var prev := InitialStates(days[..|days| - 1]);
      assert forall i :: 0 <= i < |days| - 1 ==> days[..|days| - 1][i] == days[i];
      prev[Format(days[|days| - 1]) := AllOpen]
  }

  /** At mount every one of the seven shown days has all three slots
      expanded, and no other day has flags. */
  lemma InitialStatesOfWeek(now: Instant, d: DateKey, t: MealType)
    ensures d in InitialStates(WeekDays(now)) <==> now.day <= d < now.day + DaysShown
    ensures d in InitialStates(WeekDays(now)) ==>
              t in InitialStates(WeekDays(now))[d] && !IsCollapsed(InitialStates(WeekDays(now)), d, t)
  {
    var days := WeekDays(now);
    if now.day <= d < now.day + DaysShown {
      assert Format(days[d - now.day]) == d;
    }
  }

  /** `toggleMeal(type)`: flips the flag of `type` and keeps the others. */
  function ToggleMeal(prev: Flags, t: MealType): (next: Flags)
    ensures IsSet(next, t) == !IsSet(prev, t)
    ensures forall u :: u != t ==> IsSet(next, u) == IsSet(prev, u)
    ensures next.Keys == prev.Keys + {t}
  {
    prev[t := !IsSet(prev, t)]
  }

  /** Toggling the same slot twice restores every flag. */
  lemma ToggleTwice(prev: Flags, t: MealType, u: MealType)
    ensures IsSet(ToggleMeal(ToggleMeal(prev, t), t), u) == IsSet(prev, u)
  {
  }

  /** What a day's `setCollapsedMeals` is called with: new flags, or an
      updater applied to the day's current flags. */
  datatype FlagsUpdate = Replace(flags: Flags) | Apply(update: Flags -> Flags)

  /** The per-day setter as the render writes it hands the updater
      `prev[dateKey]`, which is `undefined` (here `None`) for a day the
      mount effect gave no flags. `toggleMeal`'s updater, the only one ever
      passed, reads `prev[type]` and so throws a `TypeError` (here `None`)
      on `undefined`. */
  function ToggleUpdaterAsWritten(prev: Option<Flags>, t: MealType): (r: Option<Flags>)
    ensures r.None? <==> prev.None?
    ensures r.Some? ==> IsSet(r.value, t) == !IsSet(prev.value, t)
    ensures r.Some? ==> forall u :: u != t ==> IsSet(r.value, u) == IsSet(prev.value, u)
  {
    match prev
    case None => None
    case Some(f) => Some(ToggleMeal(f, t))
  }

  /** Pressing the header of slot `t` on day `d`, as written: the state
      update throws (`None`) exactly when day `d` has no flags; otherwise
      only that day's entry changes. */
  function ToggleSlotAsWritten(s: CollapsedStates, d: DateKey, t: MealType): (r: Option<CollapsedStates>)
    ensures r.None? <==> d !in s
    ensures r.Some? ==> r.value.Keys == s.Keys
    ensures r.Some? ==> forall e :: e in s && e != d ==> r.value[e] == s[e]
    ensures r.Some? ==> IsSet(r.value[d], t) == !IsSet(s[d], t)
  {
    var prev := if d in s then Some(s[d]) else None;
    match ToggleUpdaterAsWritten(prev, t)
    case None => None
    case Some(next) => Some(s[d := next])
  }

  /** The crash is reachable: the flags are set once, at mount, for the
      seven days from then, while `weekDays` is recomputed on every render.
      Rendered again a day later, the screen shows a seventh day without
      flags, and pressing any of its slot headers throws. */
  lemma NextDaysLastSlotThrows(now: Instant, t: MealType)
    ensures var s := InitialStates(WeekDays(now));
            var d := Format(WeekDays(AddDays(now, 1))[DaysShown - 1]);
            d !in s && ToggleSlotAsWritten(s, d, t).None?
  {
  }

  /** The per-day setter, corrected: an updater is handed the day's flags,
      or an empty record for a day without any, as the render already does
      when it reads `collapsedStates[dateKey] || {}`. Only the day's own
      entry changes. */
  function SetCollapsedMeals(s: CollapsedStates, d: DateKey, u: FlagsUpdate): (s': CollapsedStates)
    ensures s'.Keys == s.Keys + {d}
    ensures forall e :: e in s && e != d ==> s'[e] == s[e]
    ensures u.Replace? ==> s'[d] == u.flags
    ensures u.Apply? ==> s'[d] == u.update(if d in s then s[d] else map[])
  {
    var next := match u
      case Replace(f) => f
      case Apply(f) => f(if d in s then s[d] else map[]);
    s[d := next]
  }

  /** Pressing a slot's header on day `d` through the corrected setter
      flips exactly that slot of that day, whether or not the day had
      flags; every other day and slot keeps its state. */
  lemma ToggleOnlyThatSlot(s: CollapsedStates, d: DateKey, t: MealType, e: DateKey, u: MealType)
    ensures var s' := SetCollapsedMeals(s, d, Apply((f: Flags) => ToggleMeal(f, t)));
            IsCollapsed(s', e, u) == (if e == d && u == t then !IsCollapsed(s, e, u) else IsCollapsed(s, e, u))
  {
  }

  /** Where the code as written does not throw, the corrected setter does
      exactly what it does. */
  lemma CorrectedAgreesWhereFlagged(s: CollapsedStates, d: DateKey, t: MealType)
    ensures d in s <==> ToggleSlotAsWritten(s, d, t).Some?
    ensures d in s ==>
              ToggleSlotAsWritten(s, d, t) == Some(SetCollapsedMeals(s, d, Apply((f: Flags) => ToggleMeal(f, t))))
  {
  }
}

=== FILE: ingredient_list.dfy ===
/** components/recipe/IngredientList.tsx: the stand-alone ingredient
    editor. Its update goes through `map`, so an index that matches no row
    changes nothing. */
module IngredientList {
  import opened Types
  import RecipeForm

  /** `addIngredient`: one blank row at the end, the earlier rows as they
      were. */
  function AddIngredient(xs: seq<Ingredient>): (r: seq<Ingredient>)
    ensures |r| == |xs| + 1
    ensures forall j :: 0 <= j < |xs| ==> r[j] == xs[j]
    ensures r[|xs|] == RecipeForm.BlankIngredient
  {
    xs + [RecipeForm.BlankIngredient]
  }

  /** `updateIngredient(index, field, value)`: row `index` gets the new
      value in `field` and keeps its other field; every other row is kept;
      an index outside the list changes nothing. */
  function UpdateIngredient(xs: seq<Ingredient>, index: int, field: IngredientField, value: string): (r: seq<Ingredient>)
    ensures |r| == |xs|
    ensures 0 <= index < |xs| && field == Name ==> r[index].name == value && r[index].amount == xs[index].amount
    ensures 0 <= index < |xs| && field == Amount ==> r[index].amount == value && r[index].name == xs[index].name
    ensures forall j :: 0 <= j < |xs| && j != index ==> r[j] == xs[j]
    ensures !(0 <= index < |xs|) ==> r == xs
  {
    seq(|xs|, j requires 0 <= j < |xs| => if j == index then WithField(xs[j], field, value) else xs[j])
  }

  /** On the rows it shows, this editor behaves like the one inside the
      recipe form. */
  lemma AgreesWithRecipeForm(xs: seq<Ingredient>, index: int, field: IngredientField, value: string)
    requires 0 <= index < |xs|
    ensures UpdateIngredient(xs, index, field, value) == RecipeForm.UpdateIngredient(xs, index, field, value)
    ensures AddIngredient(xs) == RecipeForm.AddIngredient(xs)
  {
  }

  /** Edits of different fields of a row commute, and of two edits of the
      same field the later one wins. */
  lemma EditsCommute(xs: seq<Ingredient>, i: int, j: int, v: string, w: string)
    ensures UpdateIngredient(UpdateIngredient(xs, i, Name, v), j, Amount, w)
         == UpdateIngredient(UpdateIngredient(xs, j, Amount, w), i, Name, v)
    ensures UpdateIngredient(UpdateIngredient(xs, i, Name, v), i, Name, w) == UpdateIngredient(xs, i, Name, w)
  {
  }
}

=== FILE: meal_plan_hook.dfy ===
/** hooks/useMealPlan.ts: the meal-plan hook as a state record and one total
    transition per operation. Every operation first asks the backend for
    the signed-in user; the answer to that and to the query itself arrives
    as one `Reply`. Whatever happens, `loading` is false once the operation
    has finished. */
module MealPlanHook {
  import opened Wrappers
  import opened Types
  import opened Dates
  import Seqs

  /** The hook's local state: the cached rows and the `loading` flag. The
      hook's `error` field is never written, so it is not part of the state. */
  datatype State = State(mealPlans: seq<MealPlan>, loading: bool)

  /** The state after an operation together with what it returned. */
  datatype Step<+R> = Step(state: State, result: R)

  /** The fields `addMealPlan` is given; the hook adds `user_id`. */
  datatype NewMealPlan = NewMealPlan(date: DateKey, mealType: MealType, recipeId: Id)

  /** The row `addMealPlan` inserts. */
  datatype MealPlanInsert = MealPlanInsert(date: DateKey, mealType: MealType, recipeId: Id, userId: Id)

  /** The inclusive, date-only bounds of the range query. */
  datatype DateRange = DateRange(first: DateKey, last: DateKey)

  /** The bounds `fetchMealPlans(start, end)` sends: both instants are
      formatted to their date keys before they reach the query. */
  function FetchRange(start: Instant, end: Instant): DateRange {
    DateRange(Format(start), Format(end))
  }

  /** `.gte('date', first).lte('date', last)` on one date. */
  predicate InRange(r: DateRange, k: DateKey) {
    r.first <= k && k <= r.last
  }

  /** A row lies in the range of `fetchMealPlans(start, end)` exactly when
      its date lies between the two local days, both included, whatever the
      times of day of `start` and `end` are. */
  lemma FetchRangeInclusive(start: Instant, end: Instant, date: DateKey)
    ensures InRange(FetchRange(start, end), date) <==> start.day <= date <= end.day
  {
  }

  /** The rows of `table` the range query keeps, in table order. */
  function SelectRange(table: seq<MealPlan>, r: DateRange): (rows: seq<MealPlan>)
    ensures forall i :: 0 <= i < |rows| ==> rows[i] in table && r.first <= rows[i].date <= r.last
    ensures forall i :: 0 <= i < |table| && r.first <= table[i].date <= r.last ==> table[i] in rows
  {
    Seqs.Filter(table, (p: MealPlan) => InRange(r, p.date))
  }

  /** `fetchMealPlans`: a successful query replaces the cache with the rows
      (`data || []`) and returns `data` as it came; a missing user or a
      query error returns null and keeps the cache. */
  function FetchMealPlans(s: State, reply: Reply<Option<seq<MealPlan>>>): (r: Step<Option<seq<MealPlan>>>)
    ensures !r.state.loading
    ensures reply.Ok? ==> r.result == reply.value
    ensures reply.Ok? && reply.value.Some? ==> r.state.mealPlans == reply.value.value
    ensures reply.Ok? && reply.value.None? ==> r.state.mealPlans == []
    ensures !reply.Ok? ==> r.result.None? && r.state.mealPlans == s.mealPlans
  {
    match reply
    case Ok(data) => Step(State(data.GetOr([]), false), data)
    case _ => Step(s.(loading := false), None)
  }

  /** The row `addMealPlan` sends: the given fields plus the signed-in
      user's id. */
  function InsertRow(plan: NewMealPlan, user: Id): (row: MealPlanInsert)
    ensures row.userId == user
    ensures (row.date, row.mealType, row.recipeId) == (plan.date, plan.mealType, plan.recipeId)
  {
    MealPlanInsert(plan.date, plan.mealType, plan.recipeId, user)
  }

  /** `addMealPlan`: on success the inserted row goes in front of the cache
      and is returned; otherwise null and the cache is kept. */
  function AddMealPlan(s: State, reply: Reply<MealPlan>): (r: Step<Option<MealPlan>>)
    ensures !r.state.loading
    ensures reply.Ok? ==>
              && r.result == Some(reply.value)
              && |r.state.mealPlans| == |s.mealPlans| + 1
              && r.state.mealPlans[0] == reply.value
              && r.state.mealPlans[1..] == s.mealPlans
    ensures !reply.Ok? ==> r.result.None? && r.state.mealPlans == s.mealPlans
  {
    match reply
    case Ok(row) => Step(State([row] + s.mealPlans, false), Some(row))
    case _ => Step(s.(loading := false), None)
  }

  /** `updateMealPlan`: on success every cached row with that id is
      replaced by the returned row, the others stay in place. */
  function UpdateMealPlan(s: State, id: Id, reply: Reply<MealPlan>): (r: Step<Option<MealPlan>>)
    ensures !r.state.loading
    ensures reply.Ok? ==>
              && r.result == Some(reply.value)
              && |r.state.mealPlans| == |s.mealPlans|
              && forall i :: 0 <= i < |s.mealPlans| ==>
                   r.state.mealPlans[i] == (if s.mealPlans[i].id == id then reply.value else s.mealPlans[i])
    ensures !reply.Ok? ==> r.result.None? && r.state.mealPlans == s.mealPlans
  {
    match reply
    case Ok(row) => Step(State(Seqs.ReplaceWhere(s.mealPlans, (p: MealPlan) => p.id == id, row), false), Some(row))
    case _ => Step(s.(loading := false), None)
  }

  /** `deleteMealPlan`: on success the rows with that id leave the cache,
      every other row stays, and the result is true; otherwise false and the
      cache is kept. */
  function DeleteMealPlan(s: State, id: Id, reply: Reply<()>): (r: Step<bool>)
    ensures !r.state.loading
    ensures r.result <==> reply.Ok?
    ensures reply.Ok? ==>
              && (forall i :: 0 <= i < |r.state.mealPlans| ==> r.state.mealPlans[i].id != id && r.state.mealPlans[i] in s.mealPlans)
              && (forall i :: 0 <= i < |s.mealPlans| && s.mealPlans[i].id != id ==> s.mealPlans[i] in r.state.mealPlans)
              && |r.state.mealPlans| <= |s.mealPlans|
    ensures !reply.Ok? ==> r.state.mealPlans == s.mealPlans
  {
    match reply
    case Ok(_) => Step(State(Seqs.Filter(s.mealPlans, (p: MealPlan) => p.id != id), false), true)
    case _ => Step(s.(loading := false), false)
  }

  /** A successful fetch forgets the previous cache: two hooks in any
      states end in the same state, and fetching again with the same answer
      changes nothing. */
  lemma FetchReplacesCache(s1: State, s2: State, data: Option<seq<MealPlan>>)
    ensures FetchMealPlans(s1, Ok(data)).state == FetchMealPlans(s2, Ok(data)).state
    ensures FetchMealPlans(FetchMealPlans(s1, Ok(data)).state, Ok(data)) == FetchMealPlans(s1, Ok(data))
  {
  }

  /** When the backend answers the range query from a table, the cache
      afterwards holds exactly the table's rows dated between the two local
      days, both included. */
  lemma FetchedRowsInRange(s: State, table: seq<MealPlan>, start: Instant, end: Instant)
    ensures var c := FetchMealPlans(s, Ok(Some(SelectRange(table, FetchRange(start, end))))).state.mealPlans;
            && (forall i :: 0 <= i < |c| ==> c[i] in table && start.day <= c[i].date <= end.day)
            && (forall i :: 0 <= i < |table| && start.day <= table[i].date <= end.day ==> table[i] in c)
  {
  }

  /** Deleting the row just added, when no cached row shared its id,
      restores the cache. */
  lemma {:induction false} DeleteUndoesAdd(s: State, row: MealPlan)
    requires forall i :: 0 <= i < |s.mealPlans| ==> s.mealPlans[i].id != row.id
    ensures DeleteMealPlan(AddMealPlan(s, Ok(row)).state, row.id, Ok(())).state.mealPlans == s.mealPlans
  {
    var keep := (p: MealPlan) => p.id != row.id;
    Seqs.FilterAppend([row], s.mealPlans, keep);
    Seqs.FilterKeepsAll(s.mealPlans, keep);
  }

  /** Deleting removes only the rows with the given id: the rows of another
      id that share a date and meal slot with it are kept, in their order,
      so deleting distributes over any split of the cache. A single row
      is dropped exactly when it has the id, so each kept row stays once
      and in its place. */
  lemma DeleteSplits(a: seq<MealPlan>, b: seq<MealPlan>, p: MealPlan, loading: bool, id: Id)
    ensures DeleteMealPlan(State(a + b, loading), id, Ok(())).state.mealPlans
         == DeleteMealPlan(State(a, loading), id, Ok(())).state.mealPlans
          + DeleteMealPlan(State(b, loading), id, Ok(())).state.mealPlans
    ensures DeleteMealPlan(State([p], loading), id, Ok(())).state.mealPlans == (if p.id == id then [] else [p])
  {
    Seqs.FilterAppend(a, b, (p: MealPlan) => p.id != id);
  }

  /** An update touches only the rows with its id: when the returned row
      keeps that id, deleting the id afterwards gives the same cache as
      deleting it before. */
  lemma UpdateThenDelete(s: State, id: Id, row: MealPlan)
    requires row.id == id
    ensures DeleteMealPlan(UpdateMealPlan(s, id, Ok(row)).state, id, Ok(())).state.mealPlans
         == DeleteMealPlan(s, id, Ok(())).state.mealPlans
  {
    Seqs.FilterAfterReplace(s.mealPlans, (p: MealPlan) => p.id == id, row, (p: MealPlan) => p.id != id);
  }
}

=== FILE: recipe_form.dfy ===
/** components/recipe/RecipeForm.tsx: the recipe editor's state, its
    simple/detailed mode switch, the ingredient and step editors,
    validation and the payload handed to `onSubmit`. */
module RecipeForm {
  import opened Wrappers
  import opened Types
  import Seqs

  /** `initialData`: any subset of the recipe's fields (an absent
      `initialData` is `NoInitialData`). */
  datatype InitialData = InitialData(
    title: Option<string>,
    description: Option<string>,
    imageUrl: Option<string>,
    ingredients: Option<seq<Ingredient>>,
    steps: Option<seq<string>>,
    cookingTime: Option<int>,
    calories: Option<int>,
    servings: Option<int>,
    category: Option<string>)

  const NoInitialData: InitialData := InitialData(None, None, None, None, None, None, None, None, None)

  /** JavaScript's number conversions, which the model does not interpret:
      whether `Number(s)` is a number (not NaN), `parseInt(s) || 0`, and
      `n.toString()`. */
  datatype NumberConversions = NumberConversions(
    isNumeric: string -> bool,
    parseIntOr0: string -> int,
    show: int -> string)

  /** The editor's state; the numeric fields are edited as text. */
  datatype Form = Form(
    isSimpleMode: bool,
    title: string,
    description: string,
    cookingTime: string,
    servings: string,
    category: string,
    ingredients: seq<Ingredient>,
    steps: seq<string>)

  const BlankIngredient: Ingredient := Ingredient("", "")
  const DefaultCategory: string := "main"

  /** The state the form mounts with. */
  function InitialForm(init: InitialData, conv: NumberConversions): (f: Form)
    ensures !f.isSimpleMode
    ensures f.title == init.title.GetOr("") && f.description == init.description.GetOr("")
    ensures f.cookingTime == (if init.cookingTime.Some? then conv.show(init.cookingTime.value) else "")
    ensures f.servings == (if init.servings.Some? then conv.show(init.servings.value) else "")
    ensures f.category == init.category.GetOr(DefaultCategory)
    ensures init.ingredients.Some? ==> f.ingredients == init.ingredients.value
    ensures init.ingredients.None? ==> f.ingredients == [BlankIngredient]
    ensures init.steps.Some? ==> f.steps == init.steps.value
    ensures init.steps.None? ==> f.steps == [""]
  {
    Form(
      false,
      init.title.GetOr(""),
      init.description.GetOr(""),
      if init.cookingTime.Some? then conv.show(init.cookingTime.value) else "",
      if init.servings.Some? then conv.show(init.servings.value) else "",
      init.category.GetOr(DefaultCategory),
      init.ingredients.GetOr([BlankIngredient]),
      init.steps.GetOr([""]))
  }

  predicate IngredientTouched(i: Ingredient) {
    i.name != "" || i.amount != ""
  }

  predicate StepWritten(s: string) {
    s != ""
  }

  /** `hasDetailedInfo()`: something beyond the title has been entered. */
  function HasDetailedInfo(f: Form): (b: bool)
    ensures b <==>
              || f.description != "" || f.cookingTime != "" || f.servings != ""
              || (exists i :: 0 <= i < |f.ingredients| && IngredientTouched(f.ingredients[i]))
              || (exists i :: 0 <= i < |f.steps| && StepWritten(f.steps[i]))
  {
    || f.description != "" || f.cookingTime != "" || f.servings != ""
    || Seqs.Any(f.ingredients, IngredientTouched)
    || Seqs.Any(f.steps, StepWritten)
  }

  /** What `handleModeChange` does: switch at once, or ask for confirmation
      first (the switch then happens through `ConfirmModeChange`). */
  datatype ModeChange = Switched(form: Form) | NeedsConfirmation(newMode: bool)

  /** The confirmation's "switch" button. */
  function ConfirmModeChange(f: Form, newMode: bool): (g: Form)
    ensures g.isSimpleMode == newMode
    ensures g.(isSimpleMode := f.isSimpleMode) == f
  {
    f.(isSimpleMode := newMode)
  }

  /** `handleModeChange(newMode)`: going from detailed to simple mode with
      details entered asks first; every other change happens at once and
      touches nothing but the mode. */
  function HandleModeChange(f: Form, newMode: bool): (r: ModeChange)
    ensures r.NeedsConfirmation? <==> newMode && !f.isSimpleMode && HasDetailedInfo(f)
    ensures r.NeedsConfirmation? ==> r.newMode == newMode
    ensures r.Switched? ==> r.form.isSimpleMode == newMode && r.form.(isSimpleMode := f.isSimpleMode) == f
  {
    if newMode && !f.isSimpleMode && HasDetailedInfo(f) then NeedsConfirmation(newMode)
    else Switched(ConfirmModeChange(f, newMode))
  }

  /** Switching modes, confirmed or not, keeps the entered details: the
      form switched back is the form before. */
  lemma ModeSwitchKeepsDetails(f: Form, newMode: bool)
    ensures HasDetailedInfo(ConfirmModeChange(f, newMode)) == HasDetailedInfo(f)
    ensures ConfirmModeChange(ConfirmModeChange(f, newMode), f.isSimpleMode) == f
  {
  }

  // ---------------------------------------------------------------------
  // Ingredient and step editors

  /** `addIngredient`: one blank row at the end. */
  function AddIngredient(xs: seq<Ingredient>): (r: seq<Ingredient>)
    ensures |r| == |xs| + 1 && r[..|xs|] == xs && r[|xs|] == BlankIngredient
  {
    xs + [BlankIngredient]
  }

  /** `updateIngredient(index, field, value)` for a row on screen: that row
      gets the new field value, everything else stays. */
  function UpdateIngredient(xs: seq<Ingredient>, index: int, field: IngredientField, value: string): (r: seq<Ingredient>)
    requires 0 <= index < |xs|
    ensures |r| == |xs|
    ensures r[index] == WithField(xs[index], field, value)
    ensures forall j :: 0 <= j < |xs| && j != index ==> r[j] == xs[j]
  {
    xs[index := WithField(xs[index], field, value)]
  }

  /** `removeIngredient(index)` and `removeStep(index)`, which follow the
      same rule: drop entry `index` when more than one entry is left; with a
      single entry (or none) nothing changes. */
  function RemoveRow<T>(xs: seq<T>, index: int): (r: seq<T>)
    ensures |xs| > 1 && 0 <= index < |xs| ==> |r| == |xs| - 1 && r == xs[..index] + xs[index + 1..]
    ensures !(|xs| > 1 && 0 <= index < |xs|) ==> r == xs
    ensures |xs| >= 1 ==> |r| >= 1
  {
    if |xs| > 1 then Seqs.RemoveAt(xs, index) else xs
  }

  /** `addStep`: one empty step at the end. */
  function AddStep(xs: seq<string>): (r: seq<string>)
    ensures |r| == |xs| + 1 && r[..|xs|] == xs && r[|xs|] == ""
  {
    xs + [""]
  }

  /** `updateStep(index, value)` for a step on screen, or just past the
      last one, where the array assignment appends. */
  function UpdateStep(xs: seq<string>, index: int, value: string): (r: seq<string>)
    requires 0 <= index <= |xs|
    ensures index < |xs| ==> |r| == |xs|
    ensures index == |xs| ==> |r| == |xs| + 1
    ensures r[index] == value
    ensures forall j :: 0 <= j < |xs| && j != index ==> r[j] == xs[j]
  {
    if index < |xs| then xs[index := value] else xs + [value]
  }

  /** Removing the row just added gives the list back, as long as there
      was a row to begin with. */
  lemma RemoveUndoesAdd(ings: seq<Ingredient>, steps: seq<string>)
    ensures |ings| >= 1 ==> RemoveRow(AddIngredient(ings), |ings|) == ings
    ensures |steps| >= 1 ==> RemoveRow(AddStep(steps), |steps|) == steps
  {
  }

  // ---------------------------------------------------------------------
  // Validation and submission

  const TitleRequired: string := "レシピ名を入力してください"
  const NumberRequired: string := "数値を入力してください"

  /** The characters `String.prototype.trim` strips: the ECMAScript
      WhiteSpace and LineTerminator code points. */
  predicate IsWhiteSpace(c: char) {
    || c == '\t' || c == '\n' || c == '\U{000B}' || c == '\U{000C}' || c == '\r' || c == ' '
    || c == '\U{00A0}' || c == '\U{1680}' || ('\U{2000}' <= c <= '\U{200A}')
    || c == '\U{2028}' || c == '\U{2029}' || c == '\U{202F}' || c == '\U{205F}'
    || c == '\U{3000}' || c == '\U{FEFF}'
  }

  /** How many white-space characters `s` starts with. */
  function LeadingSpace(s: string): (n: nat)
    ensures n <= |s|
    ensures forall k :: 0 <= k < n ==> IsWhiteSpace(s[k])
    ensures n < |s| ==> !IsWhiteSpace(s[n])
  {
    if |s| > 0 && IsWhiteSpace(s[0]) then 1 + LeadingSpace(s[1..]) else 0
  }

  /** How many white-space characters `s` ends with. */
  function TrailingSpace(s: string): (n: nat)
    ensures n <= |s|
    ensures forall k :: |s| - n <= k < |s| ==> IsWhiteSpace(s[k])
    ensures n < |s| ==> !IsWhiteSpace(s[|s| - n - 1])
  {
    if |s| > 0 && IsWhiteSpace(s[|s| - 1]) then 1 + TrailingSpace(s[..|s| - 1]) else 0
  }

  /** `s.trim()`: `s` without its leading and trailing white space. */
  function Trim(s: string): (r: string)
    ensures LeadingSpace(s) == |s| ==> r == []
    ensures LeadingSpace(s) < |s| ==>
              && LeadingSpace(s) + TrailingSpace(s) < |s|
              && r == s[LeadingSpace(s)..|s| - TrailingSpace(s)]
    ensures |r| > 0 ==> !IsWhiteSpace(r[0]) && !IsWhiteSpace(r[|r| - 1])
  {
    var a := LeadingSpace(s);
    if a == |s| then []
    else
      var b := TrailingSpace(s);
      s[a..|s| - b]
  }

  /** A title trims to nothing exactly when it is all white space. */
  lemma TrimEmptyIffBlank(s: string)
    ensures Trim(s) == [] <==> forall k :: 0 <= k < |s| ==> IsWhiteSpace(s[k])
  {
  }

  /** The messages `validate` sets, per field. */
  datatype FormErrors = FormErrors(title: Option<string>, cookingTime: Option<string>, servings: Option<string>) {
    predicate Empty() {
      title.None? && cookingTime.None? && servings.None?
    }
  }

  /** `validate()`: a non-blank title, and in detailed mode a cooking time
      and servings that are empty or numeric. Simple mode skips the number
      checks. */
  function Validate(f: Form, conv: NumberConversions): (e: FormErrors)
    ensures e.Empty() <==>
              && (exists k :: 0 <= k < |f.title| && !IsWhiteSpace(f.title[k]))
              && (f.isSimpleMode || f.cookingTime == "" || conv.isNumeric(f.cookingTime))
              && (f.isSimpleMode || f.servings == "" || conv.isNumeric(f.servings))
    ensures e.title.Some? <==> forall k :: 0 <= k < |f.title| ==> IsWhiteSpace(f.title[k])
    ensures e.cookingTime.Some? <==> !f.isSimpleMode && f.cookingTime != "" && !conv.isNumeric(f.cookingTime)
    ensures e.servings.Some? <==> !f.isSimpleMode && f.servings != "" && !conv.isNumeric(f.servings)
    ensures e.title.Some? ==> e.title.value == TitleRequired
    ensures e.cookingTime.Some? ==> e.cookingTime.value == NumberRequired
    ensures e.servings.Some? ==> e.servings.value == NumberRequired
  {
    TrimEmptyIffBlank(f.title);
    FormErrors(
      if Trim(f.title) == [] then Some(TitleRequired) else None,
      if !f.isSimpleMode && f.cookingTime != "" && !conv.isNumeric(f.cookingTime) then Some(NumberRequired) else None,
      if !f.isSimpleMode && f.servings != "" && !conv.isNumeric(f.servings) then Some(NumberRequired) else None)
  }

  /** The placeholder pictures simple mode picks from at random. */
  const DefaultImages: seq<string> := [
    "https://via.placeholder.com/400x300/F5F7FA/718096?text=Recipe",
    "https://via.placeholder.com/400x300/F5F7FA/718096?text=Food",
    "https://via.placeholder.com/400x300/F5F7FA/718096?text=Cooking"
  ]

  predicate IngredientFilled(i: Ingredient) {
    i.name != "" && i.amount != ""
  }

  /** `handleSubmit()`: either the validation errors (and `onSubmit` is not
      called) or the recipe `onSubmit` is called with. */
  datatype Submission = Rejected(errors: FormErrors) | Submitted(recipe: RecipeDraft)

  /** The simple-mode payload: the title and category as typed, a random
      placeholder picture (`pick` stands for
      `Math.floor(Math.random() * 3)`), everything else from `initialData`
      with `""`, `0` or `[]` where it is absent. */
  function SimplePayload(f: Form, init: InitialData, pick: nat): (d: RecipeDraft)
    requires pick < |DefaultImages|
    ensures d.title == f.title && d.category == f.category
    ensures d.imageUrl in DefaultImages
    ensures d.calories == init.calories.GetOr(0)
    ensures d.description == init.description.GetOr("")
    ensures d.cookingTime == init.cookingTime.GetOr(0) && d.servings == init.servings.GetOr(0)
    ensures d.ingredients == init.ingredients.GetOr([]) && d.steps == init.steps.GetOr([])
  {
    RecipeDraft(
      f.title, f.category, DefaultImages[pick], init.calories.GetOr(0),
      init.description.GetOr(""), init.cookingTime.GetOr(0), init.servings.GetOr(0),
      init.ingredients.GetOr([]), init.steps.GetOr([]))
  }

  /** The detailed-mode payload: what was typed, the numbers parsed, only
      the ingredient rows with both name and amount and only the non-empty
      steps; the picture and calories come from `initialData`. */
  function DetailedPayload(f: Form, init: InitialData, conv: NumberConversions): (d: RecipeDraft)
    ensures d.title == f.title && d.category == f.category
    ensures d.imageUrl == init.imageUrl.GetOr("") && d.calories == init.calories.GetOr(0)
    ensures d.description == f.description
    ensures d.cookingTime == conv.parseIntOr0(f.cookingTime) && d.servings == conv.parseIntOr0(f.servings)
    ensures forall k :: 0 <= k < |d.ingredients| ==> d.ingredients[k] in f.ingredients && IngredientFilled(d.ingredients[k])
    ensures forall k :: 0 <= k < |f.ingredients| && IngredientFilled(f.ingredients[k]) ==> f.ingredients[k] in d.ingredients
    ensures forall k :: 0 <= k < |d.steps| ==> d.steps[k] in f.steps && d.steps[k] != ""
    ensures forall k :: 0 <= k < |f.steps| && f.steps[k] != "" ==> f.steps[k] in d.steps
  {
    RecipeDraft(
      f.title, f.category, init.imageUrl.GetOr(""), init.calories.GetOr(0),
      f.description, conv.parseIntOr0(f.cookingTime), conv.parseIntOr0(f.servings),
      Seqs.Filter(f.ingredients, IngredientFilled), Seqs.Filter(f.steps, StepWritten))
  }

  /** `handleSubmit()`: `onSubmit` is called exactly when validation
      passes, with the payload of the current mode. */
  function HandleSubmit(f: Form, init: InitialData, conv: NumberConversions, pick: nat): (r: Submission)
    requires pick < |DefaultImages|
    ensures r.Submitted? <==> Validate(f, conv).Empty()
    ensures r.Rejected? ==> r.errors == Validate(f, conv)
    ensures r.Submitted? && f.isSimpleMode ==> r.recipe == SimplePayload(f, init, pick)
    ensures r.Submitted? && !f.isSimpleMode ==> r.recipe == DetailedPayload(f, init, conv)
  {
    var errors := Validate(f, conv);
    if !errors.Empty() then Rejected(errors)
    else if f.isSimpleMode then Submitted(SimplePayload(f, init, pick))
    else Submitted(DetailedPayload(f, init, conv))
  }

  /** In detailed mode the submitted rows keep their on-screen order: the
      rows submitted for a list `a + b` are those submitted for `a`,
      followed by those submitted for `b`. */
  lemma SubmittedRowsKeepOrder(f: Form, init: InitialData, conv: NumberConversions, pick: nat,
                               a: seq<Ingredient>, b: seq<Ingredient>, sa: seq<string>, sb: seq<string>)
    requires pick < |DefaultImages|
    requires !f.isSimpleMode && Validate(f, conv).Empty()
    requires f.ingredients == a + b && f.steps == sa + sb
    ensures var r := HandleSubmit(f, init, conv, pick).recipe;
            && r.ingredients == Seqs.Filter(a, IngredientFilled) + Seqs.Filter(b, IngredientFilled)
            && r.steps == Seqs.Filter(sa, StepWritten) + Seqs.Filter(sb, StepWritten)
  {
    Seqs.FilterAppend(a, b, IngredientFilled);
    Seqs.FilterAppend(sa, sb, StepWritten);
  }
}

=== FILE: recipes_hook.dfy ===
/** hooks/useRecipes.ts: the recipe hook as a state record and one total
    transition per operation. `fetchRecipes` and `createRecipe` ask for the
    signed-in user first (their answer is a `Reply`); `getRecipe`,
    `updateRecipe` and `deleteRecipe` go straight to the backend (their
    answer is a `Remote`). A rejected promise is `Threw(message)`. */
module RecipesHook {
  import opened Wrappers
  import opened Types
  import Seqs

  datatype State = State(recipes: seq<Recipe>, loading: bool)

  /** How an async operation settles: resolved with a value, or rejected
      with an `Error` carrying a message. */
  datatype Outcome<+T> = Returned(value: T) | Threw(message: string)

  datatype Step<+R> = Step(state: State, result: R)

  /** The partial update `updateRecipe` receives. Only its title is read by
      the hook; the other fields go to the backend as they are. */
  datatype RecipePatch = RecipePatch(title: Option<string>)

  /** The row `createRecipe` inserts: the submitted recipe and the owner. */
  datatype RecipeInsert = RecipeInsert(recipe: RecipeDraft, userId: Id)

  const NotAuthenticated: string := "User not authenticated"
  const SaveFailed: string := "レシピの保存に失敗しました"
  const DuplicatePrefix: string := "「"
  const DuplicateSuffix: string := "」は既に登録されているレシピ名です。\n別のレシピ名を入力してください。"

  /** The message of the error thrown for a duplicate title. */
  function DuplicateTitleMessage(title: string): string {
    DuplicatePrefix + title + DuplicateSuffix
  }

  /** The message names the offending title, and different titles give
      different messages. */
  lemma DuplicateMessageNamesTitle(t: string, u: string)
    ensures DuplicateTitleMessage(t)[|DuplicatePrefix|..|DuplicatePrefix| + |t|] == t
    ensures DuplicateTitleMessage(t) == DuplicateTitleMessage(u) ==> t == u
  {
    var m := DuplicateTitleMessage(t);
    assert m[|DuplicatePrefix|..|DuplicatePrefix| + |t|] == t;
    if m == DuplicateTitleMessage(u) {
      assert |t| == |u|;
      assert DuplicateTitleMessage(u)[|DuplicatePrefix|..|DuplicatePrefix| + |u|] == u;
    }
  }

  /** A template literal renders a missing value as "undefined". */
  function TemplateText(v: Option<string>): (r: string)
    ensures v.Some? ==> r == v.value
    ensures v.None? ==> r == "undefined"
  {
    v.GetOr("undefined")
  }

  /** DEFAULT_IMAGE_URL: the default picture in the project's storage bucket,
      built from the configured backend URL. */
  function DefaultImageUrl(backendUrl: string): string {
    backendUrl + "/storage/v1/object/public/recipe-images/default-recipe-image.png"
  }

  /** The row `createRecipe` sends: the recipe as given, except that an
      empty `image_url` becomes the default image, owned by the signed-in
      user. */
  function CreatePayload(recipe: RecipeDraft, user: Id, backendUrl: string): (row: RecipeInsert)
    ensures row.userId == user
    ensures recipe.imageUrl != "" ==> row.recipe == recipe
    ensures recipe.imageUrl == "" ==> row.recipe == recipe.(imageUrl := DefaultImageUrl(backendUrl))
    ensures row.recipe.imageUrl != ""
  {
    RecipeInsert(recipe.(imageUrl := if recipe.imageUrl != "" then recipe.imageUrl else DefaultImageUrl(backendUrl)), user)
  }

  /** `fetchRecipes`: a successful query replaces the cache with the rows
      (`data || []`) and returns `data`; otherwise null and the cache is
      kept. */
  function FetchRecipes(s: State, reply: Reply<Option<seq<Recipe>>>): (r: Step<Option<seq<Recipe>>>)
    ensures !r.state.loading
    ensures reply.Ok? ==> r.result == reply.value && r.state.recipes == reply.value.GetOr([])
    ensures !reply.Ok? ==> r.result.None? && r.state.recipes == s.recipes
  {
    match reply
    case Ok(data) => Step(State(data.GetOr([]), false), data)
    case _ => Step(s.(loading := false), None)
  }

  /** A successful fetch forgets whatever was cached before, and repeating
      it with the same answer changes nothing. */
  lemma FetchReplacesCache(s1: State, s2: State, data: Option<seq<Recipe>>)
    ensures FetchRecipes(s1, Ok(data)).state == FetchRecipes(s2, Ok(data)).state
    ensures FetchRecipes(FetchRecipes(s1, Ok(data)).state, Ok(data)) == FetchRecipes(s1, Ok(data))
  {
  }

  /** `getRecipe`: the row, or null on any error; the hook's state is not
      involved. */
  function GetRecipe(reply: Remote<Recipe>): (r: Option<Recipe>)
    ensures r.Some? <==> reply.Done?
    ensures r.Some? ==> r.value == reply.value
  {
    match reply
    case Done(row) => Some(row)
    case Failed(_) => None
  }

  /** The message `createRecipe` rejects with when the insert fails: the
      duplicate-title text for a unique violation, otherwise the error's own
      message if it is an `Error`, otherwise the generic save failure. */
  function CreateErrorMessage(title: string, e: BackendError): (m: string)
    ensures e.code == UniqueViolation ==> m == DuplicateTitleMessage(title)
    ensures e.code != UniqueViolation && e.isErrorInstance ==> m == e.message
    ensures e.code != UniqueViolation && !e.isErrorInstance ==> m == SaveFailed
  {
    if e.code == UniqueViolation then DuplicateTitleMessage(title)
    else if e.isErrorInstance then e.message
    else SaveFailed
  }

  /** `createRecipe`: on success the new row goes in front of the cache and
      is returned; every failure rejects and keeps the cache. */
  function CreateRecipe(s: State, recipe: RecipeDraft, reply: Reply<Recipe>): (r: Step<Outcome<Recipe>>)
    ensures !r.state.loading
    ensures reply.Ok? ==>
              && r.result == Returned(reply.value)
              && |r.state.recipes| == |s.recipes| + 1
              && r.state.recipes[0] == reply.value
              && r.state.recipes[1..] == s.recipes
    ensures !reply.Ok? ==> r.result.Threw? && r.state.recipes == s.recipes
    ensures reply.NoUser? ==> r.result == Threw(NotAuthenticated)
    ensures reply.Err? && reply.error.code == UniqueViolation ==> r.result == Threw(DuplicateTitleMessage(recipe.title))
    ensures reply.Err? && reply.error.code != UniqueViolation && reply.error.isErrorInstance ==>
              r.result == Threw(reply.error.message)
    ensures reply.Err? && reply.error.code != UniqueViolation && !reply.error.isErrorInstance ==>
              r.result == Threw(SaveFailed)
  {
    match reply
    case Ok(row) => Step(State([row] + s.recipes, false), Returned(row))
    case NoUser => Step(s.(loading := false), Threw(NotAuthenticated))
    case Err(e) => Step(s.(loading := false), Threw(CreateErrorMessage(recipe.title, e)))
  }

  /** `updateRecipe`: on success every cached row with that id is replaced
      by the returned row. A unique violation rejects with the duplicate
      message for the patch's title; another error rejects if it is an
      `Error` and resolves to null otherwise. The cache is kept on every
      failure. */
  function UpdateRecipe(s: State, id: Id, patch: RecipePatch, reply: Remote<Recipe>): (r: Step<Outcome<Option<Recipe>>>)
    ensures !r.state.loading
    ensures reply.Done? ==>
              && r.result == Returned(Some(reply.value))
              && |r.state.recipes| == |s.recipes|
              && forall i :: 0 <= i < |s.recipes| ==>
                   r.state.recipes[i] == (if s.recipes[i].id == id then reply.value else s.recipes[i])
    ensures reply.Failed? ==> r.state.recipes == s.recipes
    ensures reply.Failed? && reply.error.code == UniqueViolation ==>
              r.result == Threw(DuplicateTitleMessage(TemplateText(patch.title)))
    ensures reply.Failed? && reply.error.code != UniqueViolation ==>
              r.result == (if reply.error.isErrorInstance then Threw(reply.error.message) else Returned(None))
  {
    match reply
    case Done(row) =>
      Step(State(Seqs.ReplaceWhere(s.recipes, (x: Recipe) => x.id == id, row), false), Returned(Some(row)))
    case Failed(e) =>
      var outcome :=
        if e.code == UniqueViolation then Threw(DuplicateTitleMessage(TemplateText(patch.title)))
        else if e.isErrorInstance then Threw(e.message)
        else Returned(None);
      Step(s.(loading := false), outcome)
  }

  /** `deleteRecipe`: on success the rows with that id leave the cache and
      the result is true; on error false and the cache is kept. */
  function DeleteRecipe(s: State, id: Id, reply: Remote<()>): (r: Step<bool>)
    ensures !r.state.loading
    ensures r.result <==> reply.Done?
    ensures reply.Done? ==>
              && (forall i :: 0 <= i < |r.state.recipes| ==> r.state.recipes[i].id != id && r.state.recipes[i] in s.recipes)
              && (forall i :: 0 <= i < |s.recipes| && s.recipes[i].id != id ==> s.recipes[i] in r.state.recipes)
              && |r.state.recipes| <= |s.recipes|
    ensures reply.Failed? ==> r.state.recipes == s.recipes
  {
    match reply
    case Done(_) => Step(State(Seqs.Filter(s.recipes, (x: Recipe) => x.id != id), false), true)
    case Failed(_) => Step(s.(loading := false), false)
  }

  /** A title the backend reports as taken never reaches the cache, and the
      rejection names it. */
  lemma DuplicateCreateRejected(s: State, recipe: RecipeDraft, e: BackendError)
    requires e.code == UniqueViolation
    ensures var r := CreateRecipe(s, recipe, Err(e));
            && r.state.recipes == s.recipes
            && r.result.Threw?
            && r.result.message[|DuplicatePrefix|..|DuplicatePrefix| + |recipe.title|] == recipe.title
  {
    DuplicateMessageNamesTitle(recipe.title, recipe.title);
  }

  /** Deleting the recipe just created, when no cached recipe shared its
      id, restores the cache. */
  lemma {:induction false} DeleteUndoesCreate(s: State, recipe: RecipeDraft, row: Recipe)
    requires forall i :: 0 <= i < |s.recipes| ==> s.recipes[i].id != row.id
    ensures DeleteRecipe(CreateRecipe(s, recipe, Ok(row)).state, row.id, Done(())).state.recipes == s.recipes
  {
    var keep := (x: Recipe) => x.id != row.id;
    Seqs.FilterAppend([row], s.recipes, keep);
    Seqs.FilterKeepsAll(s.recipes, keep);
  }

  /** Deleting distributes over any split of the cache, and a single
      recipe is dropped exactly when it has the id, so each kept recipe
      stays once and in its place. */
  lemma DeleteSplits(a: seq<Recipe>, b: seq<Recipe>, x: Recipe, loading: bool, id: Id)
    ensures DeleteRecipe(State(a + b, loading), id, Done(())).state.recipes
         == DeleteRecipe(State(a, loading), id, Done(())).state.recipes
          + DeleteRecipe(State(b, loading), id, Done(())).state.recipes
    ensures DeleteRecipe(State([x], loading), id, Done(())).state.recipes == (if x.id == id then [] else [x])
  {
    Seqs.FilterAppend(a, b, (y: Recipe) => y.id != id);
  }

  /** An update touches only the rows with its id: when the returned row
      keeps that id, deleting the id afterwards gives the same cache as
      deleting it before. */
  lemma UpdateThenDelete(s: State, id: Id, patch: RecipePatch, row: Recipe)
    requires row.id == id
    ensures DeleteRecipe(UpdateRecipe(s, id, patch, Done(row)).state, id, Done(())).state.recipes
         == DeleteRecipe(s, id, Done(())).state.recipes
  {
    Seqs.FilterAfterReplace(s.recipes, (x: Recipe) => x.id == id, row, (x: Recipe) => x.id != id);
  }
}

=== FILE: root_layout.dfy ===
/** app/_layout.tsx: the root layout's loading gate and auth redirect. */
module RootLayout {
  import opened Wrappers
  import Routes
  import SignIn
  import SignUp

  datatype Screen = Spinner | App

  /** `segments[0] === "auth"`; with no segments it is `undefined`. */
  predicate InAuthGroup(segments: seq<string>) {
    |segments| > 0 && segments[0] == "auth"
  }

  /** What the layout renders: the spinner while the session is loading. */
  function Render(authLoading: bool): (s: Screen)
    ensures s == Spinner <==> authLoading
  {
    if authLoading then Spinner else App
  }

  /** The redirect effect: nothing while loading; signed out outside the
      auth screens goes to sign-in; signed in on an auth screen goes to the
      tabs; otherwise the route stays. */
  function Redirect(authLoading: bool, hasSession: bool, segments: seq<string>): (r: Option<string>)
    ensures authLoading ==> r.None?
    ensures r == Some(Routes.SignInRoute) <==> !authLoading && !hasSession && !InAuthGroup(segments)
    ensures r == Some(Routes.TabsRoute) <==> !authLoading && hasSession && InAuthGroup(segments)
    ensures r.None? <==> authLoading || hasSession != InAuthGroup(segments)
  {
    if authLoading then None
    else if !hasSession && !InAuthGroup(segments) then Some(Routes.SignInRoute)
    else if hasSession && InAuthGroup(segments) then Some(Routes.TabsRoute)
    else None
  }

  /** The segments the router reports after a redirect. */
  function SegmentsOf(route: string): seq<string> {
    if route == Routes.SignInRoute then Routes.SignInSegments else Routes.TabsSegments
  }

  /** The redirect settles in one step: on the screen it sends the user to,
      with the same session, the effect asks for no further redirect. */
  lemma RedirectSettles(hasSession: bool, segments: seq<string>)
    ensures var r := Redirect(false, hasSession, segments);
            r.Some? ==> Redirect(false, hasSession, SegmentsOf(r.value)).None?
  {
  }

  /** Where the auth screens send the user is where the layout lets them
      stay, given the session the backend reports afterwards. A successful
      sign-in creates a session, and the tabs it navigates to are kept. A
      sign-up confirmation leads to the sign-in screen, which is kept
      exactly when sign-up left no session (email confirmation required);
      with a session the layout moves on to the tabs. */
  lemma AuthScreensLandStably(email: string, password: string, confirm: string, sessionAfterSignUp: bool)
    ensures var r := SignIn.HandleSignIn(email, password, None);
            r.effect.Navigate? ==> Redirect(false, true, SegmentsOf(r.effect.route)).None?
    ensures var r := SignUp.HandleSignUp(email, password, confirm, None);
            r.alert.onOk.Some? ==>
              (Redirect(false, sessionAfterSignUp, SegmentsOf(r.alert.onOk.value)).None? <==> !sessionAfterSignUp)
    ensures var r := SignUp.HandleSignUp(email, password, confirm, None);
            r.alert.onOk.Some? && sessionAfterSignUp ==>
              Redirect(false, true, SegmentsOf(r.alert.onOk.value)) == Some(Routes.TabsRoute)
  {
  }
}

=== FILE: routes.dfy ===
/** The routes the auth screens and the root layout navigate to, and the
    route segments the router reports on each of them. */
module Routes {

  const SignInRoute: string := "/auth/sign-in"
  const TabsRoute: string := "/(tabs)"

  /** `useSegments()` on the sign-in screen. */
  const SignInSegments: seq<string> := ["auth", "sign-in"]

  /** `useSegments()` on the tab group's index screen. */
  const TabsSegments: seq<string> := ["(tabs)"]
}

=== FILE: seqs.dfy ===
/** The array operations shared by several list rules: `filter` (the
    hooks' deletes, the range query and the form's submitted rows), `map`
    with a replacing callback (the hooks' updates), remove-at (the form's
    remove), update-at (the step list's edit) and `some` (the form's
    detailed-info test). */
module Seqs {

  /** `xs.filter(keep)`: the elements of `xs` that satisfy `keep`, in order. */
  function Filter<T>(xs: seq<T>, keep: T -> bool): (r: seq<T>)
    ensures |r| <= |xs|
    ensures forall i :: 0 <= i < |r| ==> r[i] in xs && keep(r[i])
    ensures forall i :: 0 <= i < |xs| && keep(xs[i]) ==> xs[i] in r
  {
    if |xs| == 0 then []
    else (if keep(xs[0]) then [xs[0]] else []) + Filter(xs[1..], keep)
  }

  /** Filtering commutes with concatenation: the kept elements of `a` come
      first, in their order, then those of `b`. Together with the one-element
      case this pins `Filter` down as the order-preserving selection. */
  lemma {:induction false} FilterAppend<T>(a: seq<T>, b: seq<T>, keep: T -> bool)
    ensures Filter(a + b, keep) == Filter(a, keep) + Filter(b, keep)
  {
    if |a| == 0 {
      assert a + b == b;
    } else {
      assert (a + b)[0] == a[0];
      assert (a + b)[1..] == a[1..] + b;
      FilterAppend(a[1..], b, keep);
    }
  }

  /** Filtering by a predicate every element satisfies is the identity. */
  lemma {:induction false} FilterKeepsAll<T>(xs: seq<T>, keep: T -> bool)
    requires forall i :: 0 <= i < |xs| ==> keep(xs[i])
    ensures Filter(xs, keep) == xs
  {
    if |xs| > 0 {
      FilterKeepsAll(xs[1..], keep);
    }
  }

  /** `xs.map(x => hit(x) ? row : x)`: every element that `hit` selects is
      replaced by `row`; the others stay where they are. */
  function ReplaceWhere<T>(xs: seq<T>, hit: T -> bool, row: T): (r: seq<T>)
    ensures |r| == |xs|
    ensures forall i :: 0 <= i < |xs| && hit(xs[i]) ==> r[i] == row
    ensures forall i :: 0 <= i < |xs| && !hit(xs[i]) ==> r[i] == xs[i]
  {
    if |xs| == 0 then []
    else [if hit(xs[0]) then row else xs[0]] + ReplaceWhere(xs[1..], hit, row)
  }

  /** Replacing elements that a filter drops by a row it also drops does
      not change what the filter keeps. */
  lemma {:induction false} FilterAfterReplace<T>(xs: seq<T>, hit: T -> bool, row: T, keep: T -> bool)
    requires forall i :: 0 <= i < |xs| && hit(xs[i]) ==> !keep(xs[i])
    requires !keep(row)
    ensures Filter(ReplaceWhere(xs, hit, row), keep) == Filter(xs, keep)
  {
    if |xs| > 0 {
      var r := ReplaceWhere(xs, hit, row);
      FilterAfterReplace(xs[1..], hit, row, keep);
      assert r[1..] == ReplaceWhere(xs[1..], hit, row);
      assert Filter(r, keep) == (if keep(r[0]) then [r[0]] else []) + Filter(r[1..], keep);
    }
  }

  /** `xs.filter((_, j) => j !== i)`: drops the element at `i`; an index
      outside the list drops nothing. */
  function RemoveAt<T>(xs: seq<T>, i: int): (r: seq<T>)
    ensures 0 <= i < |xs| ==> |r| == |xs| - 1
    ensures 0 <= i < |xs| ==> forall j :: 0 <= j < i ==> r[j] == xs[j]
    ensures 0 <= i < |xs| ==> forall j :: i <= j < |r| ==> r[j] == xs[j + 1]
    ensures !(0 <= i < |xs|) ==> r == xs
  {
    if 0 <= i < |xs| then xs[..i] + xs[i + 1..] else xs
  }

  /** `xs.map((x, j) => j === i ? v : x)`: element `i` becomes `v`; an index
      outside the list changes nothing. */
  function UpdateAt<T>(xs: seq<T>, i: int, v: T): (r: seq<T>)
    ensures 0 <= i < |xs| ==> r == xs[i := v]
    ensures !(0 <= i < |xs|) ==> r == xs
  {
    seq(|xs|, j requires 0 <= j < |xs| => if j == i then v else xs[j])
  }

  /** `xs.some(p)`. */
  function Any<T>(xs: seq<T>, p: T -> bool): (b: bool)
    ensures b <==> exists i :: 0 <= i < |xs| && p(xs[i])
  {
    if |xs| == 0 then false
    else p(xs[0]) || Any(xs[1..], p)
  }
}

=== FILE: sign_in.dfy ===
/** app/auth/sign-in.tsx: `handleSignIn`. */
module SignIn {
  import opened Wrappers
  import opened Alerts
  import Routes

  const FillBoth: string := "メールアドレスとパスワードを入力してください"

  /** What the screen does after the attempt: show an error alert, or
      replace the route. */
  datatype Effect = Show(alert: Alert) | Navigate(route: string)

  /** What `handleSignIn` did: the credentials it passed to `signIn`, if it
      called it, the effect, and `loading` afterwards. */
  datatype Result = Result(called: Option<(string, string)>, effect: Effect, loading: bool)

  /** `handleSignIn()`; `answer` is the error `signIn` returns (its
      message), or none. */
  function HandleSignIn(email: string, password: string, answer: Option<string>): (r: Result)
    ensures r.called.Some? <==> email != "" && password != ""
    ensures r.called.Some? ==> r.called.value == (email, password)
    ensures r.called.None? ==> r.effect == Show(ErrorAlert(FillBoth))
    ensures r.called.Some? && answer.Some? ==> r.effect == Show(ErrorAlert(answer.value))
    ensures r.effect.Navigate? <==> r.called.Some? && answer.None?
    ensures r.effect.Navigate? ==> r.effect.route == Routes.TabsRoute
    ensures !r.loading
  {
    if email == "" || password == "" then Result(None, Show(ErrorAlert(FillBoth)), false)
    else
      var effect := match answer
        case Some(message) => Show(ErrorAlert(message))
        case None => Navigate(Routes.TabsRoute);
      Result(Some((email, password)), effect, false)
  }
}

=== FILE: sign_up.dfy ===
/** app/auth/sign-up.tsx: `handleSignUp`. Three checks run in order and the
    first one that fails is the only error shown; only when all pass is the
    backend's sign-up called. */
module SignUp {
  import opened Wrappers
  import opened Alerts
  import Routes

  const FillAllFields: string := "全ての項目を入力してください"
  const PasswordMismatch: string := "パスワードが一致しません"
  const PasswordTooShort: string := "パスワードは6文字以上で入力してください"
  const ConfirmationTitle: string := "確認メールを送信しました"
  const ConfirmationBody: string := "メールに記載されたリンクをクリックして、登録を完了してください"

  const MinPasswordLength: nat := 6

  /** `s.length`: JavaScript counts UTF-16 code units, so a character
      outside the Basic Multilingual Plane counts twice. */
  function Utf16Length(s: string): (n: nat)
    ensures |s| <= n <= 2 * |s|
    ensures |s| == 1 ==> n == (if s[0] as int > 0xFFFF then 2 else 1)
    ensures (forall k :: 0 <= k < |s| ==> s[k] as int <= 0xFFFF) ==> n == |s|
    ensures (forall k :: 0 <= k < |s| ==> s[k] as int > 0xFFFF) ==> n == 2 * |s|
  {
    if |s| == 0 then 0
    else (if s[|s| - 1] as int > 0xFFFF then 2 else 1) + Utf16Length(s[..|s| - 1])
  }

  /** The code-unit count of a concatenation is the sum of the parts'
      counts; with the one-character values above, this fixes the count of
      every string. */
  lemma {:induction false} Utf16LengthAppend(a: string, b: string)
    ensures Utf16Length(a + b) == Utf16Length(a) + Utf16Length(b)
    decreases |b|
  {
    if |b| == 0 {
      assert a + b == a;
    } else {
      assert (a + b)[..|a + b| - 1] == a + b[..|b| - 1];
      Utf16LengthAppend(a, b[..|b| - 1]);
    }
  }

  /** What `handleSignUp` did: the credentials it passed to `signUp`, if it
      called it, the alert it showed, and `loading` afterwards. */
  datatype Result = Result(called: Option<(string, string)>, alert: Alert, loading: bool)

  /** The first failing check, if any. */
  function ValidationError(email: string, password: string, confirm: string): (e: Option<string>)
    ensures e.None? <==>
              email != "" && password != "" && confirm != "" && password == confirm
              && Utf16Length(password) >= MinPasswordLength
    ensures (email == "" || password == "" || confirm == "") ==> e == Some(FillAllFields)
    ensures email != "" && password != "" && confirm != "" && password != confirm ==> e == Some(PasswordMismatch)
    ensures email != "" && password != "" && password == confirm && Utf16Length(password) < MinPasswordLength ==>
              e == Some(PasswordTooShort)
  {
    if email == "" || password == "" || confirm == "" then Some(FillAllFields)
    else if password != confirm then Some(PasswordMismatch)
    else if Utf16Length(password) < MinPasswordLength then Some(PasswordTooShort)
    else None
  }

  /** `handleSignUp()`; `answer` is the error `signUp` returns (its message),
      or none. */
  function HandleSignUp(email: string, password: string, confirm: string, answer: Option<string>): (r: Result)
    ensures r.called.Some? <==> ValidationError(email, password, confirm).None?
    ensures r.called.Some? ==> r.called.value == (email, password)
    ensures r.called.None? ==> r.alert == ErrorAlert(ValidationError(email, password, confirm).value)
    ensures r.called.Some? && answer.Some? ==> r.alert == ErrorAlert(answer.value)
    ensures r.called.Some? && answer.None? ==>
              r.alert == Alert(ConfirmationTitle, ConfirmationBody, Some(Routes.SignInRoute))
    ensures !r.loading
  {
    match ValidationError(email, password, confirm)
    case Some(message) => Result(None, ErrorAlert(message), false)
    case None =>
      var alert := match answer
        case Some(message) => ErrorAlert(message)
        case None => Alert(ConfirmationTitle, ConfirmationBody, Some(Routes.SignInRoute));
      Result(Some((email, password)), alert, false)
  }

  /** The length check in terms of characters. A password of at least six
      characters always passes it, since no character counts less than one
      code unit. When every character is in the Basic Multilingual Plane,
      a password that passes the first two checks is refused by the length
      check exactly when it has fewer than six characters; when every
      character lies above it, exactly when it has fewer than three. */
  lemma LengthCheckInCharacters(email: string, password: string, confirm: string)
    requires email != "" && password != "" && password == confirm
    ensures |password| >= MinPasswordLength ==> ValidationError(email, password, confirm).None?
    ensures (forall k :: 0 <= k < |password| ==> password[k] as int <= 0xFFFF) ==>
              (ValidationError(email, password, confirm) == Some(PasswordTooShort) <==> |password| < MinPasswordLength)
    ensures (forall k :: 0 <= k < |password| ==> password[k] as int > 0xFFFF) ==>
              (ValidationError(email, password, confirm) == Some(PasswordTooShort) <==> 2 * |password| < MinPasswordLength)
  {
  }
}

=== FILE: step_list.dfy ===
/** components/recipe/StepList.tsx: the stand-alone step editor. */
module StepList {
  import Seqs
  import RecipeForm

  /** `addStep`: one empty step at the end, the earlier steps as they
      were. */
  function AddStep(xs: seq<string>): (r: seq<string>)
    ensures |r| == |xs| + 1
    ensures forall j :: 0 <= j < |xs| ==> r[j] == xs[j]
    ensures r[|xs|] == ""
  {
    xs + [""]
  }

  /** `updateStep(index, value)`: step `index` becomes `value`, the others
      are kept; an index outside the list changes nothing. */
  function UpdateStep(xs: seq<string>, index: int, value: string): (r: seq<string>)
    ensures |r| == |xs|
    ensures 0 <= index < |xs| ==> r[index] == value
    ensures forall j :: 0 <= j < |xs| && j != index ==> r[j] == xs[j]
  {
    Seqs.UpdateAt(xs, index, value)
  }

  /** On the steps it shows, this editor behaves like the one inside the
      recipe form; writing a step back to its old text restores the list. */
  lemma AgreesWithRecipeForm(xs: seq<string>, index: int, value: string)
    requires 0 <= index < |xs|
    ensures UpdateStep(xs, index, value) == RecipeForm.UpdateStep(xs, index, value)
    ensures AddStep(xs) == RecipeForm.AddStep(xs)
    ensures UpdateStep(UpdateStep(xs, index, value), index, xs[index]) == xs
  {
  }
}

=== FILE: types.dfy ===
/** The records the app exchanges with its backend (types/recipe.ts,
    types/mealPlans.ts and the hook's own `MealPlan`), and the shape of a
    backend reply as the hooks see it. */
module Types {
  import opened Wrappers

  /** Row ids and user ids are opaque strings. */
  type Id = string

  /** The closed set of meal slots. */
  datatype MealType = Breakfast | Lunch | Dinner

  datatype Ingredient = Ingredient(name: string, amount: string)

  /** `keyof Ingredient`: the field an edit addresses. */
  datatype IngredientField = Name | Amount

  /** `{ ...ing, [field]: value }`. */
  function WithField(ing: Ingredient, field: IngredientField, value: string): (r: Ingredient)
    ensures field == Name ==> r.name == value && r.amount == ing.amount
    ensures field == Amount ==> r.amount == value && r.name == ing.name
  {
    match field
    case Name => ing.(name := value)
    case Amount => ing.(amount := value)
  }

  /** A recipe row as types/recipe.ts declares it. */
  datatype Recipe = Recipe(
    id: Id,
    title: string,
    description: string,
    imageUrl: string,
    ingredients: seq<Ingredient>,
    steps: seq<string>,
    cookingTime: int,
    calories: int,
    servings: int)

  /** The recipe the form submits and `createRecipe` receives: the
      `Recipe` fields without `id`, plus the `category` the form sets, which
      the `Recipe` type does not declare. */
  datatype RecipeDraft = RecipeDraft(
    title: string,
    category: string,
    imageUrl: string,
    calories: int,
    description: string,
    cookingTime: int,
    servings: int,
    ingredients: seq<Ingredient>,
    steps: seq<string>)

  /** A calendar date as the `date` column stores it ("yyyy-MM-dd"),
      represented by its day number: distinct dates have distinct keys and
      the order of keys is the calendar order, which is what the string
      comparison of zero-padded ISO dates gives. */
  type DateKey = int

  /** A meal-plan row as hooks/useMealPlan.ts declares it: the shared type
      plus `user_id`. The joined `recipe` is optional in the type. */
  datatype MealPlan = MealPlan(
    id: Id,
    date: DateKey,
    mealType: MealType,
    recipeId: Id,
    recipe: Option<Recipe>,
    createdAt: Option<string>,
    userId: Id)

  /** An error object the backend client hands back: the Postgres error
      code, the message, and whether the object is a JavaScript `Error`
      instance (one catch block branches on that). */
  datatype BackendError = BackendError(code: string, message: string, isErrorInstance: bool)

  /** The Postgres SQLSTATE for a unique-constraint violation. */
  const UniqueViolation: string := "23505"

  /** What an operation that first asks for the signed-in user gets back:
      no user, a backend error, or the data. */
  datatype Reply<+T> = NoUser | Err(error: BackendError) | Ok(value: T)

  /** What an operation that talks to the backend without asking for the
      user gets back. */
  datatype Remote<+T> = Failed(error: BackendError) | Done(value: T)
}

=== FILE: wrappers.dfy ===
/** The optional value of TypeScript (`T | null`, `T | undefined`, an optional
    property), written the conventional Dafny way. */
module Wrappers {

  datatype Option<+T> = None | Some(value: T) {

    /** `x ?? d`: the value if present, the default otherwise. */
    function GetOr(default: T): (r: T)
      ensures Some? ==> r == value
      ensures None? ==> r == default
    {
      match this
      case Some(v) => v
      case None => default
    }
  }
}
